=== FILE: README.md ===
# OPC UA → Prometheus exporter: a Dafny model of its core

The exporter subscribes to nodes of an OPC UA server and publishes each node's
value as a Prometheus gauge. The repository holds several snapshots of the same
program, and this project models the pure logic they share:

- **Bit extraction.** An integer value is serialised to little-endian bytes of
  its declared width (1, 2, 4 or 8 bytes), and one bit is read from those bytes.
  There are three snapshots with different acceptance policies:
  - `extract_bit.go` accepts unsigned values only and takes a `uint8` index
    (module `ExtractBitUint8`);
  - `opcua_exporter/extract_bit.go` accepts unsigned values only and takes an
    `int` index, refusing a negative index first (module `ExtractBitInt`);
  - `opcua_bitvector_handler.go` serialises with `binary.Write`, so signed
    values (two's complement) and bools are accepted too, and extracts from
    raw bytes (module `OpcuaBitVectorHandler`).

  All three share one scalar datatype (`Scalars`), one little-endian codec
  (`LittleEndian`) and the two serialisers (`Serialisation`). `Snapshots`
  proves where the three agree.
- **Value coercion** (`OpcValueHandler`). A variant becomes the float a gauge
  is set to:
  - null is refused;
  - a bool is 1 or 0;
  - an integer is rounded as Go's `float64(x)` rounds it (`Float64`);
  - a float passes through;
  - a string or any other modelled payload is refused (see "Left out" for
    the Go kinds that reflection would still convert).
- **Handlers** (`Handlers`, `Metrics`). The `MsgHandler` interface has two
  variants, the plain value handler and the bit-vector handler. Each holds its
  gauge as a "last value set" field.
- **Registry and monitor loop** (`Registry`). `createHandler` picks the variant
  and prefixes the metric name. `createMetrics` keys the handlers by node name,
  so a later config replaces an earlier one. The monitor loop has three message
  branches and a read-timeout counter.
- **List-valued registry** (`FanOutRegistry`). This is the later registry that
  the exporter's tests exercise. Every config is kept under its node, in
  config order, and a message reaches every handler of its node.
- **Node-name → metric-name** (`NodeNames`). This is the first exporter's
  naming rule:
  1. match the node against `s=\[([^\]]+)\]([^;]+)`;
  2. join the two groups with `_`;
  3. replace every `[`, `]` and `.` with `_`;
  4. trim `_` from both ends.

  `NodeNames` also models that exporter's `createMetrics`, which builds one
  gauge per node.
- **Event summary counter** (`EventSummary`). This is a count per channel plus
  a total, cleared at every summary interval. It is modelled sequentially,
  without its mutex.

Some modelling choices:
- Go errors are `Result`/`Option` values (`Outcomes`).
- Bytes are the `byte` newtype (0..255). The Go bit expression
  `(b & (1 << k)) >> k` is kept on `bv8` and related to integer arithmetic.
- A float value is an exact `real`.
- Go's `int(x)` on a float64 truncates toward zero (`Registry.TruncateToInt`).

`opcua_exporter/opcua_exporter_test.go:51-67` expects `coerceToFloat64(true)`
to give 1.0. That test belongs to the `opcua_exporter/` program, whose own
`coerceToFloat64` is not part of this model. The model follows
`opc_value_handler.go:58-68`, where reflection cannot convert a bool to
float64, so `OpcValueHandler.CoerceToFloat64` refuses a bool. The handler
itself never asks it to convert one: `FloatValue` routes bools to
`boolToFloat` first.

## Model

| member | source | states |
|---|---|---|
| LittleEndian.FromToLE | opcua_bitvector_handler.go:58-66 | reading back the w little-endian bytes written for any integer v gives v modulo 2^(8w) |
| LittleEndian.ToFromLE | opcua_bitvector_handler.go:58-66 | writing back the value a byte sequence encodes reproduces exactly those bytes, so the codec is a bijection |
| LittleEndian.SignedRoundTrip | opcua_bitvector_handler.go:58-66 | a signed value in range, written in two's complement and read back as signed, is unchanged |
| LittleEndian.UnsignedRoundTrip | extract_bit.go:33-54 | an unsigned value below 2^(8w), written in w bytes and read back, is unchanged |
| LittleEndian.ToLE | opcua_bitvector_handler.go:58-66 | a value is written in exactly as many bytes as its width asks for |
| LittleEndian.FromLE | opcua_bitvector_handler.go:79-86 | n bytes denote an unsigned value below 2^(8n) |
| LittleEndian.MaskShift | opcua_bitvector_handler.go:84-86 | the byte expression `(b & (1 << k)) >> k` is 0 or 1 |
| LittleEndian.ByteBit | extract_bit.go:25-27 | the bit read from one byte is 0 or 1 |
| LittleEndian.ByteBitIsMaskShift | extract_bit.go:25-27 | for every byte and every bit index below 8, the digit the model reads is the value of Go's `(b & (1 << k)) >> k` |
| LittleEndian.MaskShiftDigit | opcua_bitvector_handler.go:84-86 | the byte expression `(b & (1 << k)) >> k` is binary digit k of b |
| LittleEndian.ByteBitDigit | extract_bit.go:25-27 | the bit read from one byte is binary digit k of that byte |
| LittleEndian.BitOfLE | opcua_exporter/extract_bit.go:24-31 | bit `b` of the little-endian bytes of v (byte b/8, bit b%8) is binary digit b of v |
| LittleEndian.BitOfLEMod | opcua_bitvector_handler.go:79-86 | bit b of the w-byte serialisation of any integer v is digit b of v mod 2^(8w), and it is 0 or 1 |
| LittleEndian.BitOfBytes | opcua_bitvector_handler.go:79-86 | bit b of any byte sequence is digit b of the value the sequence encodes |
| LittleEndian.SignedFromLE | opcua_bitvector_handler.go:58-66 | reading bytes as two's complement gives a value in the signed range of their width |
| Scalars.ModulusIsPow2 | opcua_bitvector_handler.go:58-66 | the value range of each integer width w is 2^(8w), and half of it bounds the signed range |
| Serialisation.UintToBytes | opcua_exporter/extract_bit.go:37-57 | exactly the four unsigned kinds are serialised, each in its own width; every other kind is refused naming its kind |
| Serialisation.UintToBytesDecodes | extract_bit.go:33-54 | the unsigned serialisation decodes back to the value it came from |
| Serialisation.VariantToBytes | opcua_bitvector_handler.go:58-66 | `binary.Write` writes integers of either signedness in their width and a bool as one byte that is 1 exactly for true; the other modelled kinds (floats, strings, other payloads) are refused naming their kind |
| Serialisation.VariantToBytesDecodes | opcua_bitvector_handler.go:58-66 | the serialised integer decodes to its value (unsigned kinds), to its value read as two's complement (signed kinds), and to its value mod 2^(8w) read unsigned |
| Serialisation.UintAgreesWithVariant | opcua_exporter/extract_bit.go:37-57 | on unsigned kinds the helpers' serialiser and `binary.Write` produce the same bytes |
| Serialisation.ByteVector | opcua_bitvector_handler_test.go:94 | `int8(0x38)` is written as `[0x38]` |
| Serialisation.ShortVectors | opcua_bitvector_handler_test.go:95-97 | the three `int16` layouts the test expects |
| Serialisation.NegativeShortVectors | opcua_bitvector_handler_test.go:98-99 | `int16(-1)` and `int16(-4)` are written in two's complement as `[0xff,0xff]` and `[0xfc,0xff]` |
| Serialisation.WordVectors | opcua_bitvector_handler_test.go:100-101 | the two `int32` layouts the test expects |
| Serialisation.LongVector | opcua_bitvector_handler_test.go:102 | `int64(0x0100000000000000)` puts its one set byte last |
| ExtractBitUint8.ExtractBit | extract_bit.go:13-28 | succeeds exactly for an unsigned value and an index below its bit width; a signed, float or string input is refused by kind, a too-large index is out of range; the result is 0 or 1 |
| ExtractBitUint8.ExtractBitDigit | extract_bit.go:20-27 | on success the result is binary digit `bit` of the unsigned value |
| ExtractBitUint8.ByteVectors | opcua_exporter/opcua_exporter_test.go:80-81 | `uint8(4)` has bit 0 clear and bit 2 set |
| ExtractBitUint8.ShortSetVector | opcua_exporter/opcua_exporter_test.go:82 | bit 7 of `uint16(128)` is 1 |
| ExtractBitUint8.ShortClearVector | opcua_exporter/opcua_exporter_test.go:83 | bit 6 of `uint16(128)` is 0 |
| ExtractBitUint8.WordVector | opcua_exporter/opcua_exporter_test.go:84 | bit 7 of `uint32(128)` is 1 |
| ExtractBitUint8.LongVector | opcua_exporter/opcua_exporter_test.go:85 | bit 7 of `uint64(128)` is 1 |
| ExtractBitUint8.ThirdByteVector | opcua_exporter/opcua_exporter_test.go:86 | bit 16 of `uint32(65536)` is 1 |
| ExtractBitUint8.ThirdByteOddVector | opcua_exporter/opcua_exporter_test.go:87 | bit 16 of `uint32(65537)` is 1 |
| ExtractBitUint8.ThirdByteLongVector | opcua_exporter/opcua_exporter_test.go:88 | bit 16 of `uint64(65538)` is 1 |
| ExtractBitUint8.MixedVectors | opcua_exporter/opcua_exporter_test.go:89-90 | `uint32(0x00100098)` has bit 16 clear and bit 20 set |
| ExtractBitUint8.HighByteVector | opcua_exporter/opcua_exporter_test.go:91 | bit 24 of `uint32(0x01000000)` is 1 |
| ExtractBitUint8.RangeErrorVectors | opcua_exporter/opcua_exporter_test.go:102 | bit 22 of a `uint16` is out of range |
| ExtractBitUint8.KindErrorVectors | opcua_exporter/opcua_exporter_test.go:103-106 | a float, two signed integers and a string are refused, each naming its kind |
| ExtractBitInt.ExtractBit | opcua_exporter/extract_bit.go:14-32 | a negative index is refused before the input is looked at; otherwise succeeds exactly for an unsigned value and an index below its bit width, with the kind or range error otherwise; the result is 0 or 1 |
| ExtractBitInt.ExtractBitDigit | opcua_exporter/extract_bit.go:24-31 | on success the result is binary digit `bit` of the unsigned value |
| ExtractBitInt.ByteVectors | opcua_exporter_test.go:68-69 | `uint8(4)` has bit 0 clear and bit 2 set |
| ExtractBitInt.ShortSetVector | opcua_exporter_test.go:70 | bit 7 of `uint16(128)` is 1 |
| ExtractBitInt.ShortClearVector | opcua_exporter_test.go:71 | bit 6 of `uint16(128)` is 0 |
| ExtractBitInt.WordVector | opcua_exporter_test.go:72 | bit 7 of `uint32(128)` is 1 |
| ExtractBitInt.LongVector | opcua_exporter_test.go:73 | bit 7 of `uint64(128)` is 1 |
| ExtractBitInt.ThirdByteVector | opcua_exporter_test.go:74 | bit 16 of `uint32(65536)` is 1 |
| ExtractBitInt.ThirdByteOddVector | opcua_exporter_test.go:75 | bit 16 of `uint32(65537)` is 1 |
| ExtractBitInt.ThirdByteLongVector | opcua_exporter_test.go:76 | bit 16 of `uint64(65538)` is 1 |
| ExtractBitInt.MixedVectors | opcua_exporter_test.go:77-78 | `uint32(0x00100098)` has bit 16 clear and bit 20 set |
| ExtractBitInt.HighByteVector | opcua_exporter_test.go:79 | bit 24 of `uint32(0x01000000)` is 1 |
| ExtractBitInt.RangeErrorVectors | opcua_exporter_test.go:90-91 | a negative index is reported before the kind; bit 22 of a `uint16` is out of range |
| ExtractBitInt.KindErrorVectors | opcua_exporter_test.go:92-95 | a float, two signed integers and a string are refused, each naming its kind |
| OpcuaBitVectorHandler.ExtractBit | opcua_bitvector_handler.go:73-87 | a negative index is refused; a non-negative one succeeds exactly when its byte lies inside the bytes; the result is 0 or 1 |
| OpcuaBitVectorHandler.ExtractBitDigit | opcua_bitvector_handler.go:79-86 | on success the result is binary digit `bit` of the value the bytes encode |
| OpcuaBitVectorHandler.FloatValue | opcua_bitvector_handler.go:39-53 | a value that cannot be serialised is refused; a negative index is refused after serialising; any success is 0.0 or 1.0 |
| OpcuaBitVectorHandler.FloatValueOfInteger | opcua_bitvector_handler.go:39-53 | for an integer of width w the handler publishes digit `bit` of the value mod 2^(8w) when `bit < 8w`, and reports the index out of range otherwise |
| OpcuaBitVectorHandler.IntegerBit | opcua_bitvector_handler.go:39-53 | an index inside the width publishes digit `bit` of the value mod 2^(8w) |
| OpcuaBitVectorHandler.FloatValueOfBool | opcua_bitvector_handler.go:58-66 | a bool is one byte: bit 0 is the bool, bits 1 to 7 are 0, and any later bit is out of range for a 1-byte value |
| OpcuaBitVectorHandler.DocExample | opcua_bitvector_handler.go:13-18 | bit 16 of `0xF0F10F0F` is 1, bit 0 being the least significant bit |
| OpcuaBitVectorHandler.SecondByteVector | opcua_bitvector_handler_test.go:30 | bit 8 of `uint16(0x0100)` is 1 |
| OpcuaBitVectorHandler.SignedSecondByteVector | opcua_bitvector_handler_test.go:44 | bit 8 of `int16(0x0100)` is 1 |
| OpcuaBitVectorHandler.SignedMixedVector | opcua_bitvector_handler_test.go:51 | bit 20 of `int32(0x00100098)` is 1 |
| OpcuaBitVectorHandler.SignedClearVector | opcua_bitvector_handler_test.go:50 | bit 16 of `int32(0x00100098)` is 0 |
| OpcuaBitVectorHandler.TopByteVector | opcua_bitvector_handler_test.go:53 | bit 56 of `int64(0x0100000000000000)` is 1 |
| OpcuaBitVectorHandler.ErrorVectors | opcua_bitvector_handler_test.go:71-75 | a string and a timestamp cannot be serialised, and index -2 is refused |
| OpcuaBitVectorHandler.Handle | opcua_bitvector_handler.go:26-36 | on success the gauge takes the extracted bit; on failure the error is returned and the handler is unchanged; the bit and gauge name are kept |
| Snapshots.HelpersAgree | extract_bit.go:13-28 | the `uint8`-index helper and the `int`-index helper give the same result on every index the older one can express |
| Snapshots.HandlerAgrees | opcua_exporter/extract_bit.go:14-32 | on an unsigned value, the `int`-index helper and the handler's extraction from `binary.Write`'s bytes give the same result |
| Snapshots.FloatValueAgrees | opcua_bitvector_handler.go:39-53 | on an unsigned value the handler publishes the helper's bit when the helper succeeds, and fails with the helper's error when it fails |
| Snapshots.SignednessIrrelevant | opcua_bitvector_handler.go:58-66 | a signed and an unsigned value of the same width and value publish the same bit |
| Float64.BitLengthBounds | opc_value_handler.go:63-64 | a positive integer lies between 2^(n-1) and 2^n for its bit length n |
| Float64.RoundHalfEvenError | opc_value_handler.go:63-64 | rounding to 2^k lands on a multiple of 2^k, moves a value by at most half of 2^k, and keeps an exact multiple |
| Float64.RoundHalfEvenMultiple | opc_value_handler.go:63-64 | the rounded value is a multiple of 2^k |
| Float64.RoundHalfEvenNearest | opc_value_handler.go:63-64 | no multiple of 2^k is nearer to the value than the rounded one |
| Float64.RoundHalfEvenTies | opc_value_handler.go:63-64 | a value exactly halfway between two multiples of 2^k goes to the even one |
| Float64.RoundToBitsMultiple | opc_value_handler.go:63-64 | past p bits, the rounded magnitude is a multiple of its unit in the last place, so it has at most p significant bits |
| Float64.RoundToBitsError | opc_value_handler.go:63-64 | rounding to p significant bits keeps at most p significant bits and moves a value by at most half a unit in its last place |
| Float64.ShortIsExact | opc_value_handler.go:63-64 | a value of at most p bits is unchanged by rounding to p bits |
| Float64.ExactBelowPrecision | opc_value_handler.go:63-64 | `float64(n)` is exact for every integer below 2^53 in magnitude |
| Float64.RelativeError | opc_value_handler.go:63-64 | `float64(n)` is within a relative 2^-53 of n for every integer n |
| Float64.ToFloat64 | opc_value_handler.go:63-64 | `float64(n)` never changes the sign of n, and past 53 bits it is a multiple of n's unit in the last place, so it has at most 53 significant bits |
| Float64.ToFloat64Nearest | opc_value_handler.go:63-64 | past 53 bits, no multiple of n's unit in the last place is nearer to n than `float64(n)`, and a halfway n goes to the even multiple: round-to-nearest-even |
| Float64.ToFloat64Odd | opc_value_handler.go:63-64 | the conversion is symmetric in sign |
| OpcValueHandler.BoolToFloat | opc_value_handler.go:43-56 | true gives 1.0 and false 0.0; a value of any other kind is refused naming its kind |
| OpcValueHandler.CoerceToFloat64 | opc_value_handler.go:58-69 | converts exactly the integer and float kinds; floats pass through unchanged; a bool, a string and other kinds are refused |
| OpcValueHandler.FloatValue | opc_value_handler.go:32-41 | null is refused; a bool gives 1.0 or 0.0; integers and floats convert; strings and other kinds are refused |
| OpcValueHandler.IntegerValueExact | opc_value_handler.go:58-65 | an integer below 2^53 in magnitude converts to exactly its value |
| OpcValueHandler.IntegerValueClose | opc_value_handler.go:58-65 | every integer converts as `float64(x)` rounds it, within a relative 2^-53 |
| OpcValueHandler.SmallExact | opc_value_handler.go:58-65 | an integer below 256 in magnitude converts to exactly its value |
| OpcValueHandler.BoolVectors | opc_value_handler_test.go:16-28 | true gives 1.0, false gives 0.0 |
| OpcValueHandler.SignedVectors | opc_value_handler_test.go:40-43 | `int8(-4)`, `int16(2)`, `int32(33)` and `int64(25)` keep their values |
| OpcValueHandler.UnsignedVectors | opc_value_handler_test.go:39-47 | `byte(0x03)`, `uint8(4)`, `uint16(2)`, `uint32(33)` and `uint64(25)` keep their values |
| OpcValueHandler.Handle | opc_value_handler.go:20-27 | on success the gauge takes the float value; on failure the error is returned and the gauge is unchanged |
| Metrics.PrefixedName | opcua_exporter/main.go:186-189 | an empty prefix leaves the name alone; otherwise the result is the prefix, `_`, then the name |
| Metrics.PrefixedNameInjective | opcua_exporter/main.go:186-189 | under a fixed prefix, distinct metric names stay distinct |
| Metrics.NewGauge | opcua_exporter/main.go:190-193 | a new gauge has the given name and value 0 |
| Metrics.Gauge.Set | opc_value_handler.go:25 | setting a gauge keeps its name and makes the value the one set |
| Handlers.FloatValue | opcua_exporter/main.go:44-47 | the interface dispatches to each variant's own float computation |
| Handlers.Handle | opcua_exporter/main.go:44-47 | through the interface, the variant, gauge name and bit are kept; the gauge takes the float on success and is untouched on failure |
| Handlers.HandleIdempotent | opcua_exporter/main.go:44-47 | handling the same value twice leaves the handler as handling it once |
| Registry.TruncateToInt | opcua_exporter/main.go:198 | `int(x)` drops the fraction, rounding toward zero for either sign |
| Registry.CreateHandler | opcua_exporter/main.go:185-204 | a bit-vector handler exactly when the config names a bit, on bit `int(ExtractBit)`; the gauge is new and named by the prefix rule |
| Registry.CreateHandlerVectors | parse_config_test.go:13-23 | the test configs give a value handler and a bit-vector handler on bit 4; a prefix joins with `_` |
| Registry.RecordFor | opcua_exporter/main.go:178 | the record keeps its config; its handler is a bit-vector handler exactly when the config names a bit, and its gauge is new and named by the prefix rule |
| Registry.LastConfig | opcua_exporter/main.go:175-178 | the config found is in the list and names the node; none is found exactly when no config names the node |
| Registry.LaterReplaces | opcua_exporter/main.go:175-178 | a config not followed by another for its node is the one kept |
| Registry.CreateMetrics | opcua_exporter/main.go:173-183 | one record per configured node name and no other; each is built from the last config naming the node |
| Registry.HandleMessage | opcua_exporter/main.go:141-154 | a channel error or a nil value invokes no handler; otherwise exactly the node's handler takes the value and its error is reported, not passed on; other nodes are unchanged |
| Registry.Start | opcua_exporter/main.go:135 | the loop starts with no timeouts counted |
| Registry.Step | opcua_exporter/main.go:136-162 | a received message is handed to `HandleMessage`, whose handlers the loop keeps, and it keeps the timeout count; a timeout adds one and quits exactly at a positive limit; the context's end stops the loop; the registered nodes and their handler kinds are kept |
| Registry.MessageDispatched | opcua_exporter/main.go:141-154 | in the loop, a channel error or a nil value changes nothing; any other message runs exactly its node's handler on the value and leaves every other node's record alone |
| Registry.Run | opcua_exporter/main.go:136-162 | the loop keeps the registered nodes and their handler kinds, and ignores events once it has stopped or quit |
| Registry.QuitsExactlyAtLimit | opcua_exporter/main.go:156-161 | without the context ending, the loop quits exactly when the timeouts reach a positive limit; messages never reset the count |
| Registry.NeverQuitsWhenDisabled | opcua_exporter/main.go:159-160 | a limit of 0 disables quitting |
| Registry.TimeoutsCounted | opcua_exporter/main.go:156-158 | while the loop runs, every timeout is counted |
| FanOutRegistry.ConfigsFor | opcua_exporter/main_test.go:79-99 | every config kept for a node names it, and no more configs are kept than given |
| FanOutRegistry.ConfigsForSingle | opcua_exporter/main_test.go:79-99 | one config is kept for a node exactly when it names that node |
| FanOutRegistry.ConfigsForAppend | opcua_exporter/main_test.go:79-99 | the configs kept from a concatenation are those kept from each part, in order, so config order is preserved |
| FanOutRegistry.ConfigsForMembers | opcua_exporter/main_test.go:79-99 | a config is kept for a node exactly when it names that node |
| FanOutRegistry.RecordsFor | opcua_exporter/main_test.go:79-99 | one record per config |
| FanOutRegistry.Build | opcua_exporter/main_test.go:45-56 | appending each config's record under its node leaves no node with an empty list and no record under another node's name |
| FanOutRegistry.BuildKeys | opcua_exporter/main_test.go:79-99 | the list-valued map has an entry for every named node and no other |
| FanOutRegistry.BuildLists | opcua_exporter/main_test.go:79-99 | under each node are the records of the configs naming it, in config order |
| FanOutRegistry.CreateMetrics | opcua_exporter/main_test.go:79-99 | every config is kept under its node, in config order, and the keys are exactly the named nodes |
| FanOutRegistry.RecordsPerNode | opcua_exporter/main_test.go:96-98 | a node has at least one config, and so at least one record, exactly when some config names it |
| FanOutRegistry.CreateMetricsVector | opcua_exporter/main_test.go:80-98 | the test configs name two nodes; `foo` keeps its first and third configs in that order and `bar` its second |
| FanOutRegistry.HandleAll | opcua_exporter/main_test.go:63-73 | every record of a node handles the value once, in order, with one outcome each |
| FanOutRegistry.HandleMessage | opcua_exporter/main_test.go:38-75 | a channel error or nil value invokes nothing; otherwise every handler of the message's node, and no other, takes the value |
| FanOutRegistry.HandleMessageVector | opcua_exporter/main_test.go:38-75 | a message to `foo` reaches all three `foo` handlers and leaves `bar`'s alone |
| NodeNames.RunEnd | main.go:128 | the end of the longest run without the stop character |
| NodeNames.MatchAt | main.go:128 | a match found at a position is one the pattern describes there, with those groups |
| NodeNames.MatchAtMeans | main.go:128 | a match is found at a position exactly when the pattern (with a greedy second group) matches there with those groups |
| NodeNames.Leftmost | main.go:131 | no match starts before the position found, and one starts at it when it is inside the string |
| NodeNames.FindMatch | main.go:131 | groups are found exactly when some position matches, and they are the groups of a match before which no position matches |
| NodeNames.ReplaceAll | main.go:137 | each occurrence of the symbol becomes `_` and nothing else changes |
| NodeNames.ReplaceSeparators | main.go:136-138 | after the loop every `[`, `]` and `.` is `_` and every other character is where it was |
| NodeNames.TrimLeft | main.go:139 | only leading `_` are removed, and the result does not start with `_` |
| NodeNames.TrimRight | main.go:139 | only trailing `_` are removed, and the result does not end with `_` |
| NodeNames.Trim | main.go:139 | the result is a slice of the input whose removed ends are all `_` and whose own ends are not `_` |
| NodeNames.SeparatorsReplaced | main.go:136-138 | no separator is left after the replacement loop |
| NodeNames.TrimKeepsClean | main.go:136-139 | trimming a separator-free string gives a name with no separator and no `_` at either end |
| NodeNames.Sanitise | main.go:135-139 | the sanitised name has no `[`, `]` or `.` and no `_` at either end |
| NodeNames.MetricName | main.go:130-141 | a name exists exactly when the pattern matches somewhere, and it is always clean |
| NodeNames.MetricNameFromMatch | main.go:131-135 | the name is built from the groups of the leftmost match, joined with `_` |
| NodeNames.NoMatchAt | main.go:128 | no match starts where `s=[` does not |
| NodeNames.MetricNameOfParts | main.go:130-141 | a node `pre` `s=[` g1 `]` g2 (no `[` in pre, no `]` in g1, no `;` in g2) is named by g1 `_` g2, sanitised |
| NodeNames.ReplaceAppend | main.go:136-138 | the replacement works character by character, so it distributes over concatenation |
| NodeNames.ReplaceClean | main.go:136-138 | a string without separators is unchanged |
| NodeNames.TrimTrailing | main.go:139 | one trailing `_` after a clean name is trimmed away |
| NodeNames.ParseVector | nodeparse_test.go:5-13 | `ns=1;s=[L2S2_TMCP]Lift_Station_Consume.Alarms[3]` is named `L2S2_TMCP_Lift_Station_Consume_Alarms_3` |
| NodeNames.GaugesFail | main.go:108-125 | building the gauges fails exactly when some node has no name |
| NodeNames.GaugesKeys | main.go:108-125 | on success there is one gauge per node |
| NodeNames.GaugesNamed | main.go:112-116 | each gauge is named from its node's name by the prefix rule |
| NodeNames.GaugesMeans | main.go:108-125 | over all nodes: failure exactly when a node has no name, and otherwise one correctly named gauge per node |
| NodeNames.BuildGauges | main.go:108-125 | the loop fails exactly when a node has no name, and otherwise returns one gauge per node, named by the prefix rule |
| NodeNames.CreateGauges | main.go:108-125 | the program stops exactly when a node does not parse; otherwise one gauge per node, named by the prefix rule from its metric name |
| EventSummary.New | summary.go:12-17 | a new counter keeps the interval and has no counts and total 0 |
| EventSummary.Inc | summary.go:31-40 | the channel's count rises by one (an unseen channel starts at 1), every other channel is unchanged, and the total rises by one |
| EventSummary.Reset | summary.go:43-48 | every count is cleared and the total is 0; the interval is kept |
| EventSummary.SumRemove | summary.go:38 | the sum of the counts is any one count plus the sum of the rest |
| EventSummary.NewValid | opcua_exporter/summary.go:10-15 | a new counter's total is the sum of its counts |
| EventSummary.ResetValid | opcua_exporter/summary.go:35-40 | after a reset the total is the sum of the counts |
| EventSummary.IncValid | opcua_exporter/summary.go:24-33 | `Inc` keeps the total equal to the sum of the counts, with every count at least 1 |
| EventSummary.IncAllCounts | opcua_exporter/summary.go:24-33 | after a run of `Inc`s each count has grown by the channel's occurrences and the total by the run's length; a channel is recorded exactly when it was before or was named |
| EventSummary.IncAllValid | opcua_exporter/summary.go:24-40 | the total stays the sum of the counts after any run of `Inc`s |
| EventSummary.CountsSinceReset | opcua_exporter/summary.go:24-40 | after a reset, each count is the channel's number of occurrences and the total is the number of events |
| EventSummary.Tick | summary.go:59-61 | one tick reports the total, the number of channels and their counts, then resets |
| EventSummary.TickReportsSum | summary.go:70-76 | a tick reports a total equal to the sum of the reported counts and leaves an empty, consistent counter |
| EventSummary.SummaryVector | summary_test.go:10-26 | three `foo` events and one `bar` give counts 3 and 1 and total 4; a reset empties them |

## Left out

- Prometheus registration, `MustRegister` panics, HTTP serving and the uptime gauge: a gauge is modelled as its name and last value.
- Config reading (JSON, base64, files) and command-line flags: the prefix, the limit and the configs are parameters.
- The OPC UA client, subscription plumbing, `select` timing, `time.After`, sleeps, `cleanup` and log output.
- Concurrency: the counter's mutex and the `Start` goroutine with its ticker. In `Start` the `break` on the context's end only leaves the `select`, so the loop never ends; only one tick is modelled, as `EventSummary.Tick`.
- `logSummary`'s per-second rates (floating point) and its log lines.
- `intToByteArray` (opcua_exporter/extract_bit.go:60-68): it reads the value's memory byte by byte with `unsafe`, depends on the host's byte order, and nothing in the core calls it.
- The first exporter's message branch (main.go:89-96): it asserts the value is an `int32` and panics on any other type.
- Registry.HandleMessage: a deliverable message must name a registered node, because the code looks up a nil handler and panics otherwise. A null value for a bit-vector handler is excluded too (`Registry.Serves`), because the serialiser panics on it; `Registry.Step` and `Registry.Run` require this of every message they receive.
- Serialisation.VariantToBytes: a null variant is excluded by precondition, because `binary.Write` panics on a nil value. `OpcuaBitVectorHandler.FloatValue`, `Handlers.CanHandle`, `Registry.Serves` and `FanOutRegistry.HandleMessage` carry the exclusion up to the message loop.
- Serialisation.VariantToBytes: `binary.Write` also writes byte strings, arrays and slices of fixed-size values, and named numeric types such as `ua.StatusCode`. The model has no such kinds (a byte string is an `Other` payload) and refuses them, where Go would serialise them and the bit-vector handler would read a bit.
- Serialisation.VariantToBytes: `binary.Write` also writes float32 and float64 values as their IEEE bit patterns; the model refuses floats, so the bit-vector handler fails on them.
- OpcValueHandler.CoerceToFloat64: a float32 is carried as the exact real it denotes. Its widening to float64 is exact; the rounding that formed the float32 in the first place is outside the model.
- OpcValueHandler.CoerceToFloat64: reflect's `ConvertibleTo` also accepts named numeric types such as `ua.StatusCode` and converts them by their underlying type. The model has no such kind and refuses every `Other` payload.
- OpcValueHandler.BoolToFloat and OpcValueHandler.CoerceToFloat64: a null value is excluded by precondition, because reflection on it panics; `FloatValue` refuses null before calling them.
- Error results carry no numeric value. Go returns 0 or 0.0 beside every error, and the model returns only the error.
- Registry.TruncateToInt: NaN, infinities and float values outside Go's `int` range are not modelled.
- Registry.CreateHandler: `ExtractBit` must decode as a JSON number. A config whose value is not a number makes the type assertion panic, and that is not modelled.
- Registry.Step: the timeout count is an unbounded natural number, so Go `int` overflow is not modelled.
- EventSummary.Inc: counts and total are unbounded integers, so Go `int` overflow is not modelled.
- Go untyped constants in the tests (`0x11`, `32`, `2`) are modelled as `int64` values.
- NodeNames.MetricName: the regular expression is modelled on characters; UTF-8 bytes and runes are not distinguished. A node that does not parse stops the program with `log.Fatalf`, modelled as `None`.
- NodeNames.CreateGauges: the loop is proved through `BuildGauges`, which takes the naming rule as a function parameter, so the gauges are checked against `MetricName` and not against a fixed string.
- OpcuaBitVectorHandler: of the handler test rows, the doc example, the second-byte rows, the mixed `int32` rows, the top-byte row and the error rows are proved as vectors; `FloatValueOfInteger` covers every other row.
- FanOutRegistry.HandleMessage: `handleMessage` is not in this snapshot's `opcua_exporter/main.go`. The model infers it from `opcua_exporter/main_test.go:38-75`, which calls it, and from the message branch of the monitor loop.

=== FILE: arith.dfy ===
/** Powers of two and the division facts that little-endian encoding rests on.
    Dafny's `/` and `%` are Euclidean; with the positive divisors used here they
    are floor division and a non-negative remainder, which is exactly an
    arithmetic right shift and a two's-complement low-bits mask. */
module Arith {

  function Pow2(n: nat): (r: nat)
    ensures r >= 1
  {
    if n == 0 then 1 else 2 * Pow2(n - 1)
  }

  function Abs(x: int): nat {
    if x < 0 then -x else x
  }

  lemma {:induction false} Pow2Add(a: nat, b: nat)
    ensures Pow2(a + b) == Pow2(a) * Pow2(b)
    decreases a
  {
    if a > 0 {
      Pow2Add(a - 1, b);
      assert Pow2(a + b) == 2 * Pow2(a - 1 + b);
    }
  }

  lemma {:induction false} Pow2Monotone(a: nat, b: nat)
    requires a <= b
    ensures Pow2(a) <= Pow2(b)
    decreases b
  {
    if a < b {
      Pow2Monotone(a, b - 1);
    }
  }

  /** The powers of two that bound 8-, 16-, 32- and 64-bit integers. */
  lemma Pow2Byte()
    ensures Pow2(7) == 0x80 && Pow2(8) == 0x100
  {
  }

  lemma Pow2Short()
    ensures Pow2(15) == 0x8000 && Pow2(16) == 0x1_0000
  {
    Pow2Byte();
    Pow2Add(7, 8);
    Pow2Add(8, 8);
  }

  lemma Pow2Word()
    ensures Pow2(31) == 0x8000_0000 && Pow2(32) == 0x1_0000_0000
  {
    Pow2Short();
    Pow2Add(15, 16);
    Pow2Add(16, 16);
  }

  lemma Pow2Long()
    ensures Pow2(63) == 0x8000_0000_0000_0000 && Pow2(64) == 0x1_0000_0000_0000_0000
  {
    Pow2Word();
    Pow2Add(31, 32);
    Pow2Add(32, 32);
  }

  /** Powers of two that name bit positions used in concrete examples. */
  lemma Pow2Small()
    ensures Pow2(0) == 1 && Pow2(1) == 2 && Pow2(2) == 4 && Pow2(6) == 64 && Pow2(7) == 128
  {
  }

  lemma Pow2Mid()
    ensures Pow2(16) == 0x1_0000 && Pow2(20) == 0x10_0000 && Pow2(22) == 0x40_0000
    ensures Pow2(24) == 0x100_0000
  {
    Pow2Short();
    Pow2Add(16, 4);
    Pow2Add(16, 6);
    Pow2Add(16, 8);
    Pow2Byte();
  }

  /** Quotient and remainder are determined by the division equation. */
  lemma DivUnique(v: int, d: int, q: int, r: int)
    requires d > 0
    requires 0 <= r < d
    requires v == d * q + r
    ensures v / d == q
    ensures v % d == r
  {
    var q0 := v / d;
    var r0 := v % d;
    assert v == d * q0 + r0;
    if q0 < q {
      assert d * (q - q0) == r0 - r;
      MulAtLeast(d, q - q0);
      assert false;
    } else if q < q0 {
      assert d * (q0 - q) == r - r0;
      MulAtLeast(d, q0 - q);
      assert false;
    }
  }

  lemma MulAtLeast(d: int, k: int)
    requires d > 0
    requires k >= 1
    ensures d * k >= d
  {
  }

  lemma MulDistributes(a: int, x: int, y: int)
    ensures a * (x + y) == a * x + a * y
  {
  }

  lemma MulAssociates(a: int, b: int, c: int)
    ensures a * (b * c) == (a * b) * c
  {
  }

  lemma MulBelow(a: int, r: int, b: int)
    requires a > 0
    requires 0 <= r < b
    ensures 0 <= a * r <= a * b - a
  {
    MulDistributes(a, b - 1, 1);
  }

  /** Dividing by a product is dividing twice, and the remainder by a product
      splits into the two remainders. */
  lemma DivModProduct(v: int, a: int, b: int)
    requires a > 0
    requires b > 0
    ensures a * b > 0
    ensures v / (a * b) == (v / a) / b
    ensures v % (a * b) == a * ((v / a) % b) + v % a
    ensures (v % (a * b)) / a == (v / a) % b
    ensures (v % (a * b)) % a == v % a
  {
    var ab := a * b;
    MulAtLeast(a, b);
    var q1 := v / a;
    var r1 := v % a;
    var q2 := q1 / b;
    var r2 := q1 % b;
    var ar2 := a * r2;
    MulBelow(a, r2, b);
    MulDistributes(a, b * q2, r2);
    MulAssociates(a, b, q2);
    assert v == ab * q2 + (ar2 + r1);
    DivUnique(v, ab, q2, ar2 + r1);
    DivUnique(ar2 + r1, a, r2, r1);
  }
}

=== FILE: extract_bit_int.dfy ===
/** The later extraction helper: unsigned inputs only, an `int` bit index,
    and a negative index refused before the input is looked at. */
module ExtractBitInt {
  import opened Arith
  import opened Scalars
  import opened Outcomes
  import opened LittleEndian
  import opened Serialisation

  /** `extractBit(input, bit int)`. */
  function ExtractBit(s: Scalar, bit: int): (r: Result<byte>)
    ensures bit < 0 ==> r == Err(NegativeBitIndex(bit))
    ensures r.Ok? <==> s.IsUnsigned() && 0 <= bit < 8 * s.Width()
    ensures bit >= 0 && !s.IsUnsigned() ==> r == Err(NotUnsignedInteger(s.KindOf()))
    ensures bit >= 0 && s.IsUnsigned() && r.Err? ==> r.error == BitOutOfRange(bit, s.Width())
    ensures r.Ok? ==> r.value == 0 || r.value == 1
  {
    if bit < 0 then Err(NegativeBitIndex(bit))
    else
      var bytes :- UintToBytes(s);
      var byteIdx := bit / 8;
      var bitIdx := bit % 8;
      if byteIdx > |bytes| - 1 then Err(BitOutOfRange(bit, |bytes|))
      else
        Ok(ByteBit(bytes[byteIdx], bitIdx))
  }

  /** On success the result is binary digit `bit` of the unsigned value. */
  lemma ExtractBitDigit(s: Scalar, bit: int)
    requires s.IsUnsigned() && 0 <= bit < 8 * s.Width()
    ensures ExtractBit(s, bit) == Ok(if (s.IntValue() / Pow2(bit)) % 2 == 1 then 1 else 0)
  {
    var v := s.IntValue();
    var bytes := ToLE(v, s.Width());
    BitOfLE(v, s.Width(), bit);
  }

  /** The results the helper's tests expect, a value or two at a time. */
  lemma ByteVectors()
    ensures ExtractBit(U8(4), 0) == Ok(0)
    ensures ExtractBit(U8(4), 2) == Ok(1)
  {
  }

  lemma ShortSetVector()
    ensures ExtractBit(U16(128), 7) == Ok(1)
  {
  }

  lemma ShortClearVector()
    ensures ExtractBit(U16(128), 6) == Ok(0)
  {
  }

  lemma WordVector()
    ensures ExtractBit(U32(128), 7) == Ok(1)
  {
  }

  lemma LongVector()
    ensures ExtractBit(U64(128), 7) == Ok(1)
  {
  }

  lemma ThirdByteVector()
    ensures ExtractBit(U32(65536), 16) == Ok(1)
  {
  }

  lemma ThirdByteOddVector()
    ensures ExtractBit(U32(65537), 16) == Ok(1)
  {
  }

  lemma ThirdByteLongVector()
    ensures ExtractBit(U64(65538), 16) == Ok(1)
  {
  }

  lemma MixedVectors()
    ensures ExtractBit(U32(0x00100098), 16) == Ok(0)
    ensures ExtractBit(U32(0x00100098), 20) == Ok(1)
  {
  }

  lemma HighByteVector()
    ensures ExtractBit(U32(0x01000000), 24) == Ok(1)
  {
  }

  /** Inputs the helper refuses. The negative index is reported even though
      the value (an untyped constant, so a signed `int`) would be refused
      too. */
  lemma RangeErrorVectors()
    ensures ExtractBit(I64(0x11), -3) == Err(NegativeBitIndex(-3))
    ensures ExtractBit(U16(32768), 22) == Err(BitOutOfRange(22, 2))
  {
  }

  /** A float, signed integers (an untyped Go constant is an `int`, 64 bits
      wide here) and a string are refused. */
  lemma KindErrorVectors()
    ensures ExtractBit(F64(2.2), 7) == Err(NotUnsignedInteger(Float64Kind))
    ensures ExtractBit(I16(3), 2) == Err(NotUnsignedInteger(Int16Kind))
    ensures ExtractBit(I64(32), 2) == Err(NotUnsignedInteger(Int64Kind))
    ensures ExtractBit(Str("foo"), 3) == Err(NotUnsignedInteger(StringKind))
  {
  }
}

=== FILE: extract_bit_uint8.dfy ===
/** The earliest extraction helper: unsigned inputs only, and a `uint8` bit
    index, so a negative index cannot be written and 255 is the largest. */
module ExtractBitUint8 {
  import opened Arith
  import opened Scalars
  import opened Outcomes
  import opened LittleEndian
  import opened Serialisation

  /** `extractBit(input, bit uint8)`: serialise with `uintToByteString`,
      then refuse a byte index past the last byte. The bound `len - 1` is
      converted to `uint8`, written here as its residue modulo 256. */
  function ExtractBit(s: Scalar, bit: Uint8): (r: Result<byte>)
    ensures r.Ok? <==> s.IsUnsigned() && bit < 8 * s.Width()
    ensures !s.IsUnsigned() ==> r == Err(NotUnsignedInteger(s.KindOf()))
    ensures s.IsUnsigned() && r.Err? ==> r.error == BitOutOfRange(bit, s.Width())
    ensures r.Ok? ==> r.value == 0 || r.value == 1
  {
    var bytes :- UintToBytes(s);
    var byteIdx := bit / 8;
    var bitIdx := bit % 8;
    if byteIdx > (|bytes| - 1) % 256 then Err(BitOutOfRange(bit, |bytes|))
    else
      Ok(ByteBit(bytes[byteIdx], bitIdx))
  }

  /** On success the result is binary digit `bit` of the unsigned value. */
  lemma ExtractBitDigit(s: Scalar, bit: Uint8)
    requires s.IsUnsigned() && bit < 8 * s.Width()
    ensures ExtractBit(s, bit) == Ok(if (s.IntValue() / Pow2(bit)) % 2 == 1 then 1 else 0)
  {
    var v := s.IntValue();
    var bytes := ToLE(v, s.Width());
    BitOfLE(v, s.Width(), bit);
  }

  /** The results the helper's tests expect, a value or two at a time. */
  lemma ByteVectors()
    ensures ExtractBit(U8(4), 0) == Ok(0)
    ensures ExtractBit(U8(4), 2) == Ok(1)
  {
  }

  lemma ShortSetVector()
    ensures ExtractBit(U16(128), 7) == Ok(1)
  {
  }

  lemma ShortClearVector()
    ensures ExtractBit(U16(128), 6) == Ok(0)
  {
  }

  lemma WordVector()
    ensures ExtractBit(U32(128), 7) == Ok(1)
  {
  }

  lemma LongVector()
    ensures ExtractBit(U64(128), 7) == Ok(1)
  {
  }

  lemma ThirdByteVector()
    ensures ExtractBit(U32(65536), 16) == Ok(1)
  {
  }

  lemma ThirdByteOddVector()
    ensures ExtractBit(U32(65537), 16) == Ok(1)
  {
  }

  lemma ThirdByteLongVector()
    ensures ExtractBit(U64(65538), 16) == Ok(1)
  {
  }

  lemma MixedVectors()
    ensures ExtractBit(U32(0x00100098), 16) == Ok(0)
    ensures ExtractBit(U32(0x00100098), 20) == Ok(1)
  {
  }

  lemma HighByteVector()
    ensures ExtractBit(U32(0x01000000), 24) == Ok(1)
  {
  }

  /** Inputs the helper refuses: a bit past the width of the value. */
  lemma RangeErrorVectors()
    ensures ExtractBit(U16(32768), 22) == Err(BitOutOfRange(22, 2))
  {
  }

  /** A float, signed integers (an untyped Go constant is an `int`, 64 bits
      wide here) and a string are refused. */
  lemma KindErrorVectors()
    ensures ExtractBit(F64(2.2), 7) == Err(NotUnsignedInteger(Float64Kind))
    ensures ExtractBit(I16(3), 2) == Err(NotUnsignedInteger(Int16Kind))
    ensures ExtractBit(I64(32), 2) == Err(NotUnsignedInteger(Int64Kind))
    ensures ExtractBit(Str("foo"), 3) == Err(NotUnsignedInteger(StringKind))
  {
  }
}

=== FILE: fan_out_registry.dfy ===
/** The later, list-valued registry the exporter's tests exercise: every
    config is kept, in order, under its node name, and a message is handed to
    every handler of its node. */
module FanOutRegistry {
  import opened Scalars
  import opened Outcomes
  import opened Metrics
  import opened Handlers
  import opened Registry

  type FanOutMap = map<string, seq<Record>>

  /** The configs for node `name`, in their order in `cs`. */
  function ConfigsFor(cs: seq<NodeConfig>, name: string): (r: seq<NodeConfig>)
    ensures |r| <= |cs|
    ensures forall i | 0 <= i < |r| :: r[i].nodeName == name
    decreases |cs|
  {
    if cs == [] then []
    else
      var last := cs[|cs| - 1];
      ConfigsFor(cs[..|cs| - 1], name) + (if last.nodeName == name then [last] else [])
  }

  /** A single config is kept exactly when it names the node. */
  lemma ConfigsForSingle(c: NodeConfig, name: string)
    ensures ConfigsFor([c], name) == if c.nodeName == name then [c] else []
  {
    assert [c][..0] == [];
  }

  /** Filtering distributes over concatenation, so the kept configs keep
      their relative order. */
  lemma {:induction false} ConfigsForAppend(a: seq<NodeConfig>, b: seq<NodeConfig>, name: string)
    ensures ConfigsFor(a + b, name) == ConfigsFor(a, name) + ConfigsFor(b, name)
    decreases |b|
  {
    if b == [] {
      assert a + b == a;
    } else {
      var init := b[..|b| - 1];
      var last := b[|b| - 1];
      assert (a + b)[..|a + b| - 1] == a + init;
      ConfigsForAppend(a, init, name);
    }
  }

  /** `ConfigsFor` keeps exactly the configs that name the node. */
  lemma {:induction false} ConfigsForMembers(cs: seq<NodeConfig>, name: string)
    ensures forall c | c in ConfigsFor(cs, name) :: c in cs && c.nodeName == name
    ensures forall c | c in cs && c.nodeName == name :: c in ConfigsFor(cs, name)
    decreases |cs|
  {
    if cs != [] {
      var init := cs[..|cs| - 1];
      ConfigsForMembers(init, name);
      assert cs == init + [cs[|cs| - 1]];
    }
  }

  /** The records `createMetrics` builds for a list of configs. */
  function RecordsFor(prefix: string, cs: seq<NodeConfig>): (r: seq<Record>)
    ensures |r| == |cs|
  {
    seq(|cs|, i requires 0 <= i < |cs| => RecordFor(prefix, cs[i]))
  }

  /** The list-valued map after storing the configs in order: each config
      appends its record to the list under its node name, so no list is
      empty and every record in a list belongs to that list's node. */
  function Build(prefix: string, cs: seq<NodeConfig>): (r: FanOutMap)
    ensures forall name | name in r :: |r[name]| > 0
    ensures forall name | name in r :: forall i | 0 <= i < |r[name]| :: r[name][i].config.nodeName == name
    decreases |cs|
  {
    if cs == [] then map[]
    else
      var m := Build(prefix, cs[..|cs| - 1]);
      var c := cs[|cs| - 1];
      m[c.nodeName := (if c.nodeName in m then m[c.nodeName] else []) + [RecordFor(prefix, c)]]
  }

  /** The list-valued map has an entry for every named node and no other. */
  lemma {:induction false} BuildKeys(prefix: string, cs: seq<NodeConfig>)
    ensures Build(prefix, cs).Keys == set c | c in cs :: c.nodeName
    decreases |cs|
  {
    if cs != [] {
      var seen := cs[..|cs| - 1];
      var c := cs[|cs| - 1];
      assert cs == seen + [c];
      BuildKeys(prefix, seen);
      KeysSnoc(seen, c);
    }
  }

  /** Under each node are the records of the configs naming it, in config
      order. */
  lemma {:induction false} BuildLists(prefix: string, cs: seq<NodeConfig>, name: string)
    requires name in Build(prefix, cs)
    ensures Build(prefix, cs)[name] == RecordsFor(prefix, ConfigsFor(cs, name))
    decreases |cs|
  {
    var seen := cs[..|cs| - 1];
    var c := cs[|cs| - 1];
    var before := Build(prefix, seen);
    if name != c.nodeName {
      BuildLists(prefix, seen, name);
    } else if name in before {
      BuildLists(prefix, seen, name);
      RecordsForSnoc(prefix, ConfigsFor(seen, name), c);
    } else {
      BuildKeys(prefix, seen);
      NoConfigsFor(seen, name);
      RecordsForSnoc(prefix, [], c);
    }
  }

  lemma KeysSnoc(cs: seq<NodeConfig>, c: NodeConfig)
    ensures (set d | d in cs + [c] :: d.nodeName) == (set d | d in cs :: d.nodeName) + {c.nodeName}
  {
  }

  /** `createMetrics`, list-valued: under each node name, one record per
      config that names it, in config order. */
  method CreateMetrics(prefix: string, configs: seq<NodeConfig>) returns (m: FanOutMap)
    ensures m.Keys == set c | c in configs :: c.nodeName
    ensures forall name | name in m :: m[name] == RecordsFor(prefix, ConfigsFor(configs, name))
  {
    m := map[];
    var i := 0;
    while i < |configs|
      invariant 0 <= i <= |configs|
      invariant m == Build(prefix, configs[..i])
    {
      var c := configs[i];
      var existing := if c.nodeName in m then m[c.nodeName] else [];
      m := m[c.nodeName := existing + [RecordFor(prefix, c)]];
      assert configs[..i + 1][..i] == configs[..i];
      i := i + 1;
    }
    assert configs[..i] == configs;
    BuildKeys(prefix, configs);
    forall name | name in m
      ensures m[name] == RecordsFor(prefix, ConfigsFor(configs, name))
    {
      BuildLists(prefix, configs, name);
    }
  }

  lemma RecordsForSnoc(prefix: string, cs: seq<NodeConfig>, c: NodeConfig)
    ensures RecordsFor(prefix, cs + [c]) == RecordsFor(prefix, cs) + [RecordFor(prefix, c)]
  {
    assert (cs + [c])[..|cs|] == cs;
  }

  lemma NoConfigsFor(cs: seq<NodeConfig>, name: string)
    requires name !in set c | c in cs :: c.nodeName
    ensures ConfigsFor(cs, name) == []
  {
    ConfigsForMembers(cs, name);
    if ConfigsFor(cs, name) != [] {
      assert ConfigsFor(cs, name)[0] in ConfigsFor(cs, name);
    }
  }

  /** Configs sharing a node are all kept: the records under a node are as
      many as the configs naming it. */
  lemma RecordsPerNode(prefix: string, configs: seq<NodeConfig>, name: string)
    ensures (exists c | c in configs :: c.nodeName == name) <==> |ConfigsFor(configs, name)| > 0
  {
    ConfigsForMembers(configs, name);
    if exists c | c in configs :: c.nodeName == name {
      var c :| c in configs && c.nodeName == name;
      assert c in ConfigsFor(configs, name);
    }
  }

  /** The configs of the registry's test: two for `foo`, kept in config
      order, and one for `bar`. */
  lemma CreateMetricsVector()
    ensures var cs := [NodeConfig("foo", "foo_level_blorbs", None),
                       NodeConfig("bar", "bar_level_blorbs", None),
                       NodeConfig("foo", "foo_rate_blarbs", None)];
      && (set c | c in cs :: c.nodeName) == {"foo", "bar"}
      && ConfigsFor(cs, "foo") == [cs[0], cs[2]]
      && ConfigsFor(cs, "bar") == [cs[1]]
  {
    var cs := [NodeConfig("foo", "foo_level_blorbs", None),
               NodeConfig("bar", "bar_level_blorbs", None),
               NodeConfig("foo", "foo_rate_blarbs", None)];
    assert "foo"[0] != "bar"[0];
    ConfigsForThree(cs[0], cs[1], cs[2], "foo");
    ConfigsForThree(cs[0], cs[1], cs[2], "bar");
  }

  lemma ConfigsForThree(x: NodeConfig, y: NodeConfig, z: NodeConfig, name: string)
    ensures ConfigsFor([x, y, z], name)
         == (if x.nodeName == name then [x] else [])
          + (if y.nodeName == name then [y] else [])
          + (if z.nodeName == name then [z] else [])
  {
    assert [x, y, z] == [x] + [y] + [z];
    ConfigsForAppend([x] + [y], [z], name);
    ConfigsForAppend([x], [y], name);
    ConfigsForSingle(x, name);
    ConfigsForSingle(y, name);
    ConfigsForSingle(z, name);
  }

  /** Every record handles the value once, in order; the outcomes line up
      with the records. */
  function HandleAll(records: seq<Record>, s: Scalar): (r: (seq<Record>, seq<Option<Error>>))
    requires forall i | 0 <= i < |records| :: CanHandle(records[i].handler, s)
    ensures |r.0| == |records| && |r.1| == |records|
    ensures forall i | 0 <= i < |records| ::
      && r.0[i].config == records[i].config
      && r.0[i].handler == Handle(records[i].handler, s).0
      && r.1[i] == Handle(records[i].handler, s).1
    decreases |records|
  {
    if records == [] then ([], [])
    else
      var (h, err) := Handle(records[0].handler, s);
      var (rest, errs) := HandleAll(records[1..], s);
      ([records[0].(handler := h)] + rest, [err] + errs)
  }

  /** What the loop did with a message: a channel error, a missing value, or
      one outcome per handler of the node. */
  datatype FanOutDelivery = FanOutChannelError | FanOutNilValue | DeliveredAll(errs: seq<Option<Error>>)

  /** The message branch over the list-valued registry. A node with no
      handlers has an empty list, so nothing is invoked; every handler of the
      node must be able to take the value, since a bit-vector handler panics
      on a null one. */
  function HandleMessage(m: FanOutMap, msg: Message): (r: (FanOutMap, FanOutDelivery))
    requires Deliverable(msg) && msg.nodeId in m ==>
      forall i | 0 <= i < |m[msg.nodeId]| :: CanHandle(m[msg.nodeId][i].handler, msg.value.value)
    ensures r.0.Keys == m.Keys
    ensures !Deliverable(msg) ==> r.0 == m
    ensures msg.error.Some? ==> r.1 == FanOutChannelError
    ensures msg.error.None? && msg.value.None? ==> r.1 == FanOutNilValue
    ensures Deliverable(msg) ==> forall k | k in m && k != msg.nodeId :: r.0[k] == m[k]
    ensures Deliverable(msg) && msg.nodeId !in m ==> r == (m, DeliveredAll([]))
    ensures Deliverable(msg) && msg.nodeId in m ==>
      && r.0[msg.nodeId] == HandleAll(m[msg.nodeId], msg.value.value).0
      && r.1 == DeliveredAll(HandleAll(m[msg.nodeId], msg.value.value).1)
  {
    if msg.error.Some? then (m, FanOutChannelError)
    else if msg.value.None? then (m, FanOutNilValue)
    else if msg.nodeId !in m then (m, DeliveredAll([]))
    else
      var (records, errs) := HandleAll(m[msg.nodeId], msg.value.value);
      (m[msg.nodeId := records], DeliveredAll(errs))
  }

  /** The dispatch test: three handlers on `foo`, one on `bar`, and a float
      message for `foo` reaches all three `foo` handlers and not `bar`'s. */
  lemma HandleMessageVector()
    ensures
      var rec := Record(NodeConfig("foo", "whatever", None), ValueHandler(Gauge("whatever", 1.0)));
      var other := Record(NodeConfig("bar", "whatever", None), ValueHandler(Gauge("whatever", 1.0)));
      var m := map["foo" := [rec, rec, rec], "bar" := [other]];
      var r := HandleMessage(m, Message("foo", None, Some(F64(0.0))));
      && r.1 == DeliveredAll([None, None, None])
      && (forall i | 0 <= i < 3 :: r.0["foo"][i].handler.gauge.value == 0.0)
      && r.0["bar"] == [other]
  {
  }
}

=== FILE: float64.dfy ===
/** Go's conversion of an integer to `float64` (`float64(x)` and reflect's
    `Convert`): the integer is rounded to 53 significant bits, ties to even,
    as IEEE 754 binary64 round-to-nearest does. Only the finite range the
    64-bit integer kinds can reach matters here, so exponents never
    overflow and the result is again an integer. */
module Float64 {
  import opened Arith

  /** The number of binary digits of `a` (0 for 0). */
  function BitLength(a: nat): (n: nat)
    ensures a == 0 <==> n == 0
  {
    if a == 0 then 0 else 1 + BitLength(a / 2)
  }

  /** `a` lies between the powers of two its bit length names. */
  lemma {:induction false} BitLengthBounds(a: nat)
    requires a > 0
    ensures Pow2(BitLength(a) - 1) <= a < Pow2(BitLength(a))
    decreases a
  {
    if a > 1 {
      var h := a / 2;
      var len := BitLength(h);
      BitLengthBounds(h);
      assert BitLength(a) == len + 1;
      assert Pow2(len) == 2 * Pow2(len - 1);
      assert Pow2(len + 1) == 2 * Pow2(len);
      assert 2 * h <= a <= 2 * h + 1;
    }
  }

  /** The number of significant bits of a binary64 value. */
  const Precision: nat := 53

  /** `a` rounded to a multiple of 2^k, the nearest one, ties to the even
      multiple. */
  function RoundHalfEven(a: nat, k: nat): (r: nat)
    requires k >= 1
  {
    var p := Pow2(k);
    var q := a / p;
    var rem := a % p;
    var half := Pow2(k - 1);
    if rem > half || (rem == half && q % 2 == 1) then (q + 1) * p else q * p
  }

  /** The magnitude `a` rounded to `p` significant bits. */
  function RoundToBits(a: nat, p: nat): nat
    requires p >= 1
  {
    if BitLength(a) <= p then a
    else RoundHalfEven(a, BitLength(a) - p)
  }

  /** `float64(n)` for an integer `n`; rounding is symmetric in the sign.
      The result is a binary64 value: beyond 53 bits it is a multiple of
      the unit in the last place of `n`'s binade, so it has at most 53
      significant bits (`ToFloat64Nearest` shows it is the nearest such
      value). */
  function ToFloat64(n: int): (r: int)
    ensures n >= 0 ==> r >= 0
    ensures n < 0 ==> r <= 0
    ensures BitLength(Abs(n)) > Precision ==> Abs(r) % Pow2(BitLength(Abs(n)) - Precision) == 0
  {
    RoundToBitsMultiple(Abs(n), Precision);
    if n < 0 then -(RoundToBits(-n, Precision) as int) else RoundToBits(n, Precision)
  }

  /** Rounding to a multiple of 2^k lands on a multiple of 2^k, moves `a`
      by at most half of 2^k, and leaves a multiple of 2^k where it is. */
  lemma RoundHalfEvenError(a: nat, k: nat)
    requires k >= 1
    ensures RoundHalfEven(a, k) % Pow2(k) == 0
    ensures Abs(RoundHalfEven(a, k) - a) <= Pow2(k - 1)
    ensures a % Pow2(k) == 0 ==> RoundHalfEven(a, k) == a
  {
    RoundHalfEvenMultiple(a, k);
    var p := Pow2(k);
    var q := a / p;
    var rem := a % p;
    var half := Pow2(k - 1);
    assert p == 2 * half;
    assert a == q * p + rem;
    if rem > half || (rem == half && q % 2 == 1) {
      assert (q + 1) * p == q * p + p;
    }
  }

  /** A multiple of `p` leaves no remainder. */
  lemma MultipleMod(c: int, p: int)
    requires p > 0
    ensures (c * p) % p == 0
  {
    DivUnique(c * p, p, c, 0);
  }

  lemma MulLeq(c: int, x: int, y: int)
    requires c >= 0 && x <= y
    ensures c * x <= c * y
  {
    assert c * y - c * x == c * (y - x);
  }

  /** The rounded value is a multiple of 2^k. */
  lemma RoundHalfEvenMultiple(a: nat, k: nat)
    requires k >= 1
    ensures RoundHalfEven(a, k) % Pow2(k) == 0
  {
    var p := Pow2(k);
    var q := a / p;
    MultipleMod(q, p);
    MultipleMod(q + 1, p);
  }

  /** No multiple of 2^k is nearer to `a` than the rounded value. */
  lemma RoundHalfEvenNearest(a: nat, k: nat, m: int)
    requires k >= 1
    requires m % Pow2(k) == 0
    ensures Abs(RoundHalfEven(a, k) - a) <= Abs(m - a)
  {
    var p := Pow2(k);
    var q := a / p;
    var rem := a % p;
    var half := Pow2(k - 1);
    var j := m / p;
    assert p == 2 * half;
    assert a == p * q + rem;
    assert m == p * j;
    assert (q + 1) * p == p * q + p;
    if j <= q {
      MulLeq(p, j, q);
    } else {
      MulLeq(p, q + 1, j);
      assert p * (q + 1) == p * q + p;
    }
  }

  /** A tie is broken toward the even multiple of 2^k. */
  lemma RoundHalfEvenTies(a: nat, k: nat)
    requires k >= 1
    requires a % Pow2(k) == Pow2(k - 1)
    ensures (RoundHalfEven(a, k) / Pow2(k)) % 2 == 0
  {
    var p := Pow2(k);
    var q := a / p;
    DivUnique(q * p, p, q, 0);
    DivUnique((q + 1) * p, p, q + 1, 0);
  }

  /** Beyond `p` bits the rounded magnitude is a multiple of the unit in
      the last place, so it has at most `p` significant bits. */
  lemma RoundToBitsMultiple(a: nat, p: nat)
    requires p >= 1
    ensures BitLength(a) > p ==> RoundToBits(a, p) % Pow2(BitLength(a) - p) == 0
  {
    if BitLength(a) > p {
      RoundHalfEvenMultiple(a, BitLength(a) - p);
    }
  }

  /** The conversion lands on the multiple of the unit in the last place
      nearest to `n`, ties going to the even multiple: the binary64 value
      round-to-nearest-even gives. A value of at most 53 bits is kept. */
  lemma ToFloat64Nearest(n: int, m: int)
    requires BitLength(Abs(n)) > Precision
    requires m % Pow2(BitLength(Abs(n)) - Precision) == 0
    ensures Abs(Abs(ToFloat64(n)) - Abs(n)) <= Abs(m - Abs(n))
    ensures Abs(n) % Pow2(BitLength(Abs(n)) - Precision) == Pow2(BitLength(Abs(n)) - Precision - 1) ==>
      (Abs(ToFloat64(n)) / Pow2(BitLength(Abs(n)) - Precision)) % 2 == 0
  {
    var a := Abs(n);
    var k := BitLength(a) - Precision;
    assert Abs(ToFloat64(n)) == RoundHalfEven(a, k);
    RoundHalfEvenNearest(a, k, m);
    if a % Pow2(k) == Pow2(k - 1) {
      RoundHalfEvenTies(a, k);
    }
  }

  /** A magnitude of fewer than `p` bits is kept exactly. */
  lemma ShortIsExact(a: nat, p: nat)
    requires p >= 1
    requires a < Pow2(p)
    ensures RoundToBits(a, p) == a
  {
    if a > 0 {
      var len := BitLength(a);
      BitLengthBounds(a);
      if len > p {
        Pow2Monotone(p, len - 1);
        assert false;
      }
    }
  }

  /** Half a unit in the last place of a `p`-bit rounding of `a`: the
      largest distance rounding may move it (0 when it already fits). */
  function HalfUnit(a: nat, p: nat): nat
    requires p >= 1
  {
    if BitLength(a) <= p then 0 else Pow2(BitLength(a) - p - 1)
  }

  /** Rounding to `p` bits keeps at most `p` significant bits and moves
      `a` by at most half a unit in the last place. */
  lemma RoundToBitsError(a: nat, p: nat)
    requires p >= 1
    ensures BitLength(a) > p ==> RoundToBits(a, p) % Pow2(BitLength(a) - p) == 0
    ensures Abs(RoundToBits(a, p) - a) <= HalfUnit(a, p)
  {
    RoundToBitsMultiple(a, p);
    if BitLength(a) > p {
      RoundHalfEvenError(a, BitLength(a) - p);
    }
  }

  /** Half a unit in the last place, scaled by 2^p, is still at most `a`. */
  lemma HalfUnitBound(a: nat, p: nat)
    requires p >= 1
    ensures HalfUnit(a, p) * Pow2(p) <= a
  {
    var len := BitLength(a);
    if len > p {
      Pow2Add(len - p - 1, p);
      assert len - p - 1 + p == len - 1;
      BitLengthBounds(a);
    }
  }

  lemma ScaledBound(e: nat, h: nat, c: nat, a: nat)
    requires e <= h
    requires h * c <= a
    ensures e * c <= a
  {
    MulMonotone(e, h, c);
  }

  lemma MulMonotone(x: nat, y: nat, c: nat)
    requires x <= y
    ensures x * c <= y * c
  {
  }

  /** The conversion is exact on every integer of at most 53 bits. */
  lemma ExactBelowPrecision(n: int)
    requires Abs(n) < Pow2(Precision)
    ensures ToFloat64(n) == n
  {
    ShortIsExact(Abs(n), Precision);
  }

  /** In particular every value of a one-byte integer is kept exactly. */
  lemma ByteIsExact(n: int)
    requires Abs(n) < 0x100
    ensures ToFloat64(n) == n
  {
    var p := Precision;
    Pow2Byte();
    Pow2Monotone(8, p);
    ExactBelowPrecision(n);
  }

  /** Every conversion is correct to a relative error of 2^-53: the result
      differs from `n` by at most |n| / 2^53. */
  lemma RelativeError(n: int)
    ensures Abs(ToFloat64(n) - n) * Pow2(Precision) <= Abs(n)
  {
    var a := Abs(n);
    RoundToBitsError(a, Precision);
    HalfUnitBound(a, Precision);
    assert Abs(ToFloat64(n) - n) == Abs(RoundToBits(a, Precision) - a);
    ScaledBound(Abs(ToFloat64(n) - n), HalfUnit(a, Precision), Pow2(Precision), a);
  }

  /** Converting a negated integer negates the result. */
  lemma ToFloat64Odd(n: int)
    ensures ToFloat64(-n) == -ToFloat64(n)
  {
    if n == 0 {
      assert RoundToBits(0, Precision) == 0;
    }
  }
}

=== FILE: handlers.dfy ===
/** The `MsgHandler` interface: a node is served either by the plain value
    handler or by a bit-vector handler, and both compute a float and publish
    it to their gauge. */
module Handlers {
  import opened Scalars
  import opened Outcomes
  import opened Metrics
  import OpcValueHandler
  import OpcuaBitVectorHandler

  datatype MsgHandler =
    | ValueHandler(gauge: Gauge)
    | BitVectorHandler(gauge: Gauge, extractBit: int)

  /** A value the handler can take without panicking: the bit-vector
      handler's serialiser panics on a null variant, the value handler
      refuses it with an error. */
  predicate CanHandle(h: MsgHandler, s: Scalar) {
    h.BitVectorHandler? ==> !s.Null?
  }

  /** `FloatValue` through the interface: each variant's own computation. */
  function FloatValue(h: MsgHandler, s: Scalar): (r: Result<real>)
    requires CanHandle(h, s)
    ensures h.ValueHandler? ==> r == OpcValueHandler.FloatValue(s)
    ensures h.BitVectorHandler? ==> r == OpcuaBitVectorHandler.FloatValue(h.extractBit, s)
  {
    match h
    case ValueHandler(_) => OpcValueHandler.FloatValue(s)
    case BitVectorHandler(_, bit) => OpcuaBitVectorHandler.FloatValue(bit, s)
  }

  /** `Handle` through the interface: the handler keeps its variant, its
      gauge's name and its bit; the gauge takes the float value on success
      and is untouched on failure, whose error is returned. */
  function Handle(h: MsgHandler, s: Scalar): (r: (MsgHandler, Option<Error>))
    requires CanHandle(h, s)
    ensures r.0.ValueHandler? == h.ValueHandler? && r.0.gauge.name == h.gauge.name
    ensures h.BitVectorHandler? ==> r.0.extractBit == h.extractBit
    ensures r.1.None? <==> FloatValue(h, s).Ok?
    ensures r.1.None? ==> r.0.gauge.value == FloatValue(h, s).value
    ensures r.1.Some? ==> r.0 == h && r.1.value == FloatValue(h, s).error
  {
    match h
    case ValueHandler(g) =>
      var handled := OpcValueHandler.Handle(g, s);
      (ValueHandler(handled.gauge), handled.err)
    case BitVectorHandler(g, bit) =>
      var (next, err) := OpcuaBitVectorHandler.Handle(OpcuaBitVectorHandler.Handler(g, bit), s);
      (BitVectorHandler(next.gauge, bit), err)
  }

  /** Handling the same value twice leaves the handler as handling it once. */
  lemma HandleIdempotent(h: MsgHandler, s: Scalar)
    requires CanHandle(h, s)
    ensures Handle(Handle(h, s).0, s) == Handle(h, s)
  {
  }
}

=== FILE: layout_vectors.dfy ===
/** Concrete little-endian layouts: the byte sequences the handler's tests
    expect, worked out from the definition of the layout. */
module LayoutVectors {
  import opened LittleEndian

  lemma Byte()
    ensures ToLE(0x38, 1) == [0x38]
  {
  }

  lemma Shorts()
    ensures ToLE(0x0000, 2) == [0x00, 0x00]
    ensures ToLE(0x0102, 2) == [0x02, 0x01]
    ensures ToLE(0x0001, 2) == [0x01, 0x00]
  {
  }

  /** A negative value is laid out in two's complement: its base-256 digits
      under Euclidean division. */
  lemma NegativeShorts()
    ensures ToLE(-1, 2) == [0xff, 0xff]
    ensures ToLE(-4, 2) == [0xfc, 0xff]
  {
  }

  lemma Words()
    ensures ToLE(0x0001, 4) == [0x01, 0x00, 0x00, 0x00]
    ensures ToLE(0x00010001, 4) == [0x01, 0x00, 0x01, 0x00]
  {
  }

  lemma Long()
    ensures ToLE(0x0100000000000000, 8) == [0x00, 0x00, 0x00, 0x00, 0x00, 0x00, 0x00, 0x01]
  {
  }
}

=== FILE: little_endian.dfy ===
/** Little-endian byte sequences: the canonical layout that every serialiser of
    the exporter produces, and the bit addressing that extraction uses on it
    (bit 0 is the least-significant bit of byte 0). */
module LittleEndian {
  import opened Arith

  /** An octet, Go's `byte`. */
  newtype byte = x: int | 0 <= x < 256

  /** The low `n` bytes of `v`, least-significant first. A negative `v` comes
      out in two's complement, as Go's `binary.Write` and `PutUintNN` write it. */
  function ToLE(v: int, n: nat): (bs: seq<byte>)
    ensures |bs| == n
    decreases n
  {
    if n == 0 then [] else [(v % 256) as byte] + ToLE(v / 256, n - 1)
  }

  /** The unsigned value a little-endian byte sequence denotes. */
  function FromLE(bs: seq<byte>): (v: nat)
    ensures v < Pow2(8 * |bs|)
  {
    if bs == [] then 0
    else
      var rest := FromLE(bs[1..]);
      assert Pow2(8 * |bs|) == 256 * Pow2(8 * |bs[1..]|) by {
        Pow2Add(8, 8 * |bs[1..]|);
        Pow2Byte();
      }
      bs[0] as int + 256 * rest
  }

  /** Go's `(b & (0x01 << k)) >> k` on the bits of one byte. */
  function MaskShift(x: bv8, k: nat): (r: bv8)
    requires k < 8
    ensures r == 0 || r == 1
  {
    (x & (1 << k)) >> k
  }

  /** Bit `k` of a byte, 0 or 1: binary digit `k` of its value, which is what
      the mask-and-shift computes on its bits (`MaskShiftDigit`). */
  function ByteBit(b: byte, k: nat): (r: byte)
    requires k < 8
    ensures r == 0 || r == 1
    decreases k
  {
    if k == 0 then b % 2 else ByteBit(b / 2, k - 1)
  }

  /** `ByteBit` is digit `k` of the byte's value. */
  lemma {:induction false} ByteBitDigit(b: byte, k: nat)
    requires k < 8
    ensures ByteBit(b, k) as int == (b as int / Pow2(k)) % 2
    decreases k
  {
    if k > 0 {
      ByteBitDigit(b / 2, k - 1);
      DivModProduct(b as int, 2, Pow2(k - 1));
    }
  }

  /** Bit `bit` of a little-endian byte sequence: byte `bit / 8`, bit `bit % 8`. */
  function BitAt(bs: seq<byte>, bit: nat): byte
    requires bit < 8 * |bs|
  {
    ByteBit(bs[bit / 8], bit % 8)
  }

  lemma ShiftOne(b: bv8)
    ensures (b >> 1) as int == (b as int) / 2
  {
  }

  lemma ShiftSucc(b: bv8, k: nat)
    requires 0 < k < 8
    ensures b >> k == (b >> 1) >> (k - 1)
  {
  }

  lemma LowBit(b: bv8)
    ensures (b & 1) as int == (b as int) % 2
  {
  }

  /** A right shift of a byte by `k` divides it by 2^k. */
  lemma {:induction false} ShiftValue(b: bv8, k: nat)
    requires k < 8
    ensures (b >> k) as int == (b as int) / Pow2(k)
    decreases k
  {
    if k > 0 {
      ShiftSucc(b, k);
      ShiftValue(b >> 1, k - 1);
      ShiftOne(b);
      DivModProduct(b as int, 2, Pow2(k - 1));
    }
  }

  /** The mask-and-shift reads binary digit `k` of the byte's value. */
  lemma MaskShiftDigit(x: bv8, k: nat)
    requires k < 8
    ensures MaskShift(x, k) as int == (x as int / Pow2(k)) % 2
  {
    assert MaskShift(x, k) == (x >> k) & 1;
    LowBit(x >> k);
    ShiftValue(x, k);
  }

  /** The bit the extractors read is the one Go's mask-and-shift reads: for
      every byte `x`, as Go holds it, and every bit index below 8. */
  lemma ByteBitIsMaskShift(x: bv8, k: nat)
    requires k < 8
    ensures ByteBit(x as int as byte, k) as int == MaskShift(x, k) as int
  {
    ByteBitDigit(x as int as byte, k);
    MaskShiftDigit(x, k);
  }

  /** Encoding `n` bytes keeps exactly `v` modulo 2^(8n). */
  lemma {:induction false} FromToLE(v: int, n: nat)
    ensures FromLE(ToLE(v, n)) == v % Pow2(8 * n)
    decreases n
  {
    if n > 0 {
      var p := Pow2(8 * (n - 1));
      var bs := ToLE(v, n);
      var rest := ToLE(v / 256, n - 1);
      assert bs[1..] == rest;
      FromToLE(v / 256, n - 1);
      assert FromLE(bs) == v % 256 + 256 * ((v / 256) % p);
      assert Pow2(8 * n) == 256 * p by {
        Pow2Add(8, 8 * (n - 1));
        Pow2Byte();
      }
      DivModProduct(v, 256, p);
    }
  }

  /** Decoding then re-encoding at the same length gives the bytes back. */
  lemma {:induction false} ToFromLE(bs: seq<byte>)
    ensures ToLE(FromLE(bs), |bs|) == bs
    decreases |bs|
  {
    if bs != [] {
      var v := FromLE(bs);
      DivUnique(v, 256, FromLE(bs[1..]), bs[0] as int);
      ToFromLE(bs[1..]);
      assert ToLE(v, |bs|) == [bs[0]] + bs[1..];
    }
  }

  /** Only the value modulo 2^(8n) matters to an n-byte encoding. */
  lemma ToLEMod(v: int, n: nat)
    ensures ToLE(v % Pow2(8 * n), n) == ToLE(v, n)
  {
    FromToLE(v, n);
    ToFromLE(ToLE(v, n));
  }

  /** Bits of the low byte are the low bits of the value. */
  lemma LowByteBit(v: int, k: nat)
    requires k < 8
    ensures ((v % 256) / Pow2(k)) % 2 == (v / Pow2(k)) % 2
  {
    Pow2Add(k, 8 - k);
    Pow2Byte();
    DivModProduct(v, Pow2(k), Pow2(8 - k));
    var x := v / Pow2(k);
    assert Pow2(8 - k) == 2 * Pow2(7 - k);
    DivModProduct(x, 2, Pow2(7 - k));
  }

  /** Bit `bit` of the n-byte encoding of `v` is binary digit `bit` of `v`
      (in two's complement when `v` is negative). */
  lemma {:induction false} BitOfLE(v: int, n: nat, bit: nat)
    requires bit < 8 * n
    ensures BitAt(ToLE(v, n), bit) as int == (v / Pow2(bit)) % 2
    decreases n
  {
    if bit < 8 {
      LowBitOfLE(v, n, bit);
    } else {
      BitAtTail(v, n, bit);
      BitOfLE(v / 256, n - 1, bit - 8);
      DigitTail(v, bit);
    }
  }

  lemma LowBitOfLE(v: int, n: nat, bit: nat)
    requires bit < 8 && 0 < n
    ensures BitAt(ToLE(v, n), bit) as int == (v / Pow2(bit)) % 2
  {
    var bs := ToLE(v, n);
    assert bs[0] as int == v % 256;
    ByteBitDigit(bs[0], bit);
    LowByteBit(v, bit);
  }

  /** Past the first byte, the bits are those of the remaining bytes. */
  lemma BitAtTail(v: int, n: nat, bit: nat)
    requires 8 <= bit < 8 * n
    ensures BitAt(ToLE(v, n), bit) == BitAt(ToLE(v / 256, n - 1), bit - 8)
  {
    var bs := ToLE(v, n);
    var rest := ToLE(v / 256, n - 1);
    assert bs[1..] == rest;
    assert bs[bit / 8] == rest[(bit - 8) / 8];
    assert bit % 8 == (bit - 8) % 8;
  }

  /** Digit `bit` of `v` is digit `bit - 8` of `v / 256`. */
  lemma DigitTail(v: int, bit: nat)
    requires 8 <= bit
    ensures (v / Pow2(bit)) % 2 == ((v / 256) / Pow2(bit - 8)) % 2
  {
    assert Pow2(bit) == 256 * Pow2(bit - 8) by {
      Pow2Add(8, bit - 8);
      Pow2Byte();
    }
    DivModProduct(v, 256, Pow2(bit - 8));
  }

  /** The central extraction fact: for a w-byte integer and `0 <= bit < 8w`,
      the bit read from its little-endian bytes is digit `bit` of
      `v mod 2^(8w)`, and it is 0 or 1. */
  lemma BitOfLEMod(v: int, n: nat, bit: nat)
    requires bit < 8 * n
    ensures BitAt(ToLE(v, n), bit) as int == ((v % Pow2(8 * n)) / Pow2(bit)) % 2
    ensures BitAt(ToLE(v, n), bit) == 0 || BitAt(ToLE(v, n), bit) == 1
  {
    ToLEMod(v, n);
    BitOfLE(v % Pow2(8 * n), n, bit);
    var bs := ToLE(v, n);
  }

  /** Any byte sequence: bit `bit` is binary digit `bit` of the unsigned
      value the bytes denote. */
  lemma BitOfBytes(bs: seq<byte>, bit: nat)
    requires bit < 8 * |bs|
    ensures BitAt(bs, bit) as int == (FromLE(bs) / Pow2(bit)) % 2
  {
    ToFromLE(bs);
    BitOfLE(FromLE(bs), |bs|, bit);
  }

  /** The two's-complement value a non-empty little-endian byte sequence denotes. */
  function SignedFromLE(bs: seq<byte>): (v: int)
    requires |bs| > 0
    ensures -(Pow2(8 * |bs| - 1) as int) <= v < Pow2(8 * |bs| - 1)
  {
    var u := FromLE(bs);
    assert Pow2(8 * |bs|) == 2 * Pow2(8 * |bs| - 1);
    if u >= Pow2(8 * |bs| - 1) then u - Pow2(8 * |bs|) else u
  }

  /** Encoding a value that fits in `n` bytes as a signed integer and decoding
      it as signed gives the value back. */
  lemma SignedRoundTrip(v: int, n: nat)
    requires n > 0
    requires -(Pow2(8 * n - 1) as int) <= v < Pow2(8 * n - 1)
    ensures SignedFromLE(ToLE(v, n)) == v
  {
    var bs := ToLE(v, n);
    var h := Pow2(8 * n - 1);
    var m := Pow2(8 * n);
    assert m == 2 * h;
    FromToLE(v, n);
    SignedResidue(v, FromLE(bs), h, m);
  }

  /** Reading the residue modulo 2h back into [-h, h) recovers the value. */
  lemma SignedResidue(v: int, u: int, h: int, m: int)
    requires h > 0 && m == 2 * h
    requires -h <= v < h
    requires u == v % m
    ensures (if u >= h then u - m else u) == v
  {
    if v < 0 {
      DivUnique(v, m, -1, v + m);
    } else {
      DivUnique(v, m, 0, v);
    }
  }

  /** Encoding a value that fits in `n` bytes as unsigned and decoding it gives
      the value back. */
  lemma UnsignedRoundTrip(v: int, n: nat)
    requires 0 <= v < Pow2(8 * n)
    ensures FromLE(ToLE(v, n)) == v
  {
    FromToLE(v, n);
    DivUnique(v, Pow2(8 * n), 0, v);
  }
}

=== FILE: metrics.dfy ===
/** A Prometheus gauge, reduced to what the exporter observes of it: its
    registered name and the last value set; and the rule that names it. */
module Metrics {

  datatype Gauge = Gauge(name: string, value: real) {
    /** `gauge.Set(x)`. */
    function Set(x: real): (g: Gauge)
      ensures g.name == name && g.value == x
    {
      this.(value := x)
    }
  }

  /** `prometheus.NewGauge`: a fresh gauge reads 0. */
  function NewGauge(name: string): (g: Gauge)
    ensures g.name == name && g.value == 0.0
  {
    Gauge(name, 0.0)
  }

  /** The metric name under a `-prom-prefix`: `prefix_name` when the prefix
      is set, the bare name when it is empty. */
  function PrefixedName(prefix: string, name: string): (r: string)
    ensures prefix == [] ==> r == name
    ensures prefix != [] ==> |r| == |prefix| + 1 + |name|
    ensures prefix != [] ==> forall k | 0 <= k < |prefix| :: r[k] == prefix[k]
    ensures prefix != [] ==> r[|prefix|] == '_'
    ensures prefix != [] ==> forall k | 0 <= k < |name| :: r[|prefix| + 1 + k] == name[k]
  {
    if prefix != [] then prefix + "_" + name else name
  }

  /** Under one prefix, distinct names stay distinct, so the prefix never
      merges two metrics. */
  lemma PrefixedNameInjective(prefix: string, a: string, b: string)
    requires PrefixedName(prefix, a) == PrefixedName(prefix, b)
    ensures a == b
  {
    if prefix != [] {
      assert |a| == |b|;
      forall k | 0 <= k < |a|
        ensures a[k] == b[k]
      {
        assert a[k] == PrefixedName(prefix, a)[|prefix| + 1 + k];
      }
    }
  }
}

=== FILE: node_names.dfy ===
/** The first exporter's metric naming: a node identifier such as
    `ns=1;s=[Area]Path.To.Tag[3]` is matched against `s=\[([^\]]+)\]([^;]+)`,
    its two groups are joined with `_`, every `[`, `]` and `.` becomes `_`,
    and underscores are trimmed from both ends. */
module NodeNames {
  import opened Outcomes
  import opened Metrics

  /** The end of the longest run of characters other than `stop` that
      starts at `from`. */
  function RunEnd(s: string, from: nat, stop: char): (j: nat)
    requires from <= |s|
    ensures from <= j <= |s|
    ensures forall k | from <= k < j :: s[k] != stop
    ensures j < |s| ==> s[j] == stop
    decreases |s| - from
  {
    if from == |s| || s[from] == stop then from else RunEnd(s, from + 1, stop)
  }

  /** The regular expression's meaning at position `i`, stated without
      running anything: `s=[`, a non-empty group without `]`, `]`, then a
      non-empty group without `;` that extends as far as it can (the
      repetition is greedy and nothing follows it in the pattern). */
  predicate IsMatch(s: string, i: nat, g1: string, g2: string) {
    var open := i + 3;
    var close := open + |g1|;
    var end := close + 1 + |g2|;
    && end <= |s|
    && s[i..open] == "s=["
    && |g1| > 0 && (forall k | 0 <= k < |g1| :: g1[k] != ']')
    && s[open..close] == g1
    && s[close] == ']'
    && |g2| > 0 && (forall k | 0 <= k < |g2| :: g2[k] != ';')
    && s[close + 1..end] == g2
    && (end < |s| ==> s[end] == ';')
  }

  /** The match starting at `i`, if there is one: both groups, which the
      pattern describes (`MatchAtMeans` gives the converse). */
  function MatchAt(s: string, i: nat): (r: Option<(string, string)>)
    requires i <= |s|
    ensures r.Some? ==> IsMatch(s, i, r.value.0, r.value.1)
  {
    if i + 3 <= |s| && s[i..i + 3] == "s=[" then
      var close := RunEnd(s, i + 3, ']');
      if close == i + 3 || close == |s| then None
      else
        var end := RunEnd(s, close + 1, ';');
        if end == close + 1 then None else Some((s[i + 3..close], s[close + 1..end]))
    else None
  }

  /** `MatchAt` finds exactly the matches the pattern describes. */
  lemma MatchAtMeans(s: string, i: nat, g1: string, g2: string)
    requires i <= |s|
    ensures MatchAt(s, i) == Some((g1, g2)) <==> IsMatch(s, i, g1, g2)
  {
    if IsMatch(s, i, g1, g2) {
      var close := i + 3 + |g1|;
      RunEndUnique(s, i + 3, ']', close);
      RunEndUnique(s, close + 1, ';', close + 1 + |g2|);
    }
  }

  /** A run's end is the only position that ends the run there. */
  lemma RunEndUnique(s: string, from: nat, stop: char, j: nat)
    requires from <= j <= |s|
    requires forall k | from <= k < j :: s[k] != stop
    requires j < |s| ==> s[j] == stop
    ensures RunEnd(s, from, stop) == j
  {
  }

  /** Where the leftmost match at or after `from` starts; `|s| + 1` when
      there is none. */
  function Leftmost(s: string, from: nat): (i: nat)
    requires from <= |s|
    ensures from <= i <= |s| + 1
    ensures forall k | from <= k < i && k <= |s| :: MatchAt(s, k).None?
    ensures i <= |s| ==> MatchAt(s, i).Some?
    decreases |s| - from
  {
    if MatchAt(s, from).Some? then from
    else if from == |s| then |s| + 1
    else Leftmost(s, from + 1)
  }

  /** `FindStringSubmatch`: the groups of the leftmost match, and nothing
      exactly when no position matches. */
  function FindMatch(s: string): (r: Option<(string, string)>)
    ensures r.Some? <==> HasMatch(s)
    ensures r.Some? ==> exists i | 0 <= i <= |s| ::
      IsMatch(s, i, r.value.0, r.value.1) && forall k | 0 <= k < i :: MatchAt(s, k).None?
  {
    var i := Leftmost(s, 0);
    if i <= |s| then
      var r := MatchAt(s, i);
      assert IsMatch(s, i, r.value.0, r.value.1);
      r
    else None
  }

  predicate IsSeparator(c: char) {
    c == '[' || c == ']' || c == '.'
  }

  /** `strings.ReplaceAll(s, string(sym), "_")` for one character. */
  function ReplaceAll(s: string, sym: char): (r: string)
    ensures |r| == |s|
    ensures forall k | 0 <= k < |s| :: r[k] == (if s[k] == sym then '_' else s[k])
  {
    seq(|s|, k requires 0 <= k < |s| => if s[k] == sym then '_' else s[k])
  }

  /** The loop over `"[]."`: each separator replaced in turn. After the
      three passes every separator has become `_` and every other character
      is where it was. */
  function ReplaceSeparators(s: string): (r: string)
    ensures |r| == |s|
    ensures forall k | 0 <= k < |s| :: r[k] == (if IsSeparator(s[k]) then '_' else s[k])
  {
    ReplaceAll(ReplaceAll(ReplaceAll(s, '['), ']'), '.')
  }

  /** The first position at or after `from` that does not hold `_`. */
  function SkipForward(s: string, from: nat): (j: nat)
    requires from <= |s|
    ensures from <= j <= |s|
    ensures forall k | from <= k < j :: s[k] == '_'
    ensures j < |s| ==> s[j] != '_'
    decreases |s| - from
  {
    if from == |s| || s[from] != '_' then from else SkipForward(s, from + 1)
  }

  /** The end of the prefix of `s[..to]` that does not end in `_`. */
  function SkipBackward(s: string, to: nat): (j: nat)
    requires to <= |s|
    ensures j <= to
    ensures forall k | j <= k < to :: s[k] == '_'
    ensures j > 0 ==> s[j - 1] != '_'
  {
    if to == 0 || s[to - 1] != '_' then to else SkipBackward(s, to - 1)
  }

  /** `strings.TrimLeft(s, "_")`. */
  function TrimLeft(s: string): (r: string)
    ensures |r| <= |s| && r == s[|s| - |r|..]
    ensures forall k | 0 <= k < |s| - |r| :: s[k] == '_'
    ensures r == [] || r[0] != '_'
  {
    s[SkipForward(s, 0)..]
  }

  /** `strings.TrimRight(s, "_")`. */
  function TrimRight(s: string): (r: string)
    ensures |r| <= |s| && r == s[..|r|]
    ensures forall k | |r| <= k < |s| :: s[k] == '_'
    ensures r == [] || r[|r| - 1] != '_'
  {
    s[..SkipBackward(s, |s|)]
  }

  /** `r` is `s[a..]` cut to `|r|`, and everything cut away is `_`. */
  predicate IsTrimmedAt(s: string, r: string, a: nat) {
    && a + |r| <= |s|
    && r == s[a..a + |r|]
    && (forall k | 0 <= k < a :: s[k] == '_')
    && (forall k | a + |r| <= k < |s| :: s[k] == '_')
  }

  /** `strings.Trim(s, "_")`: the longest inner slice that neither starts
      nor ends with `_`, everything cut away being `_`. */
  function Trim(s: string): (r: string)
    ensures r == [] || (r[0] != '_' && r[|r| - 1] != '_')
    ensures exists a: nat :: IsTrimmedAt(s, r, a)
  {
    var left := TrimLeft(s);
    var r := TrimRight(left);
    var a := |s| - |left|;
    assert IsTrimmedAt(s, r, a);
    r
  }

  /** No `[`, `]` or `.` anywhere. */
  predicate NoSeparators(t: string) {
    forall k | 0 <= k < |t| :: !IsSeparator(t[k])
  }

  /** The shape of every metric name: no separator, and no `_` at either
      end. */
  predicate IsCleanName(t: string) {
    NoSeparators(t) && (t == [] || (t[0] != '_' && t[|t| - 1] != '_'))
  }

  lemma SeparatorsReplaced(s: string)
    ensures NoSeparators(ReplaceSeparators(s))
  {
  }

  /** Trimming keeps a slice, so it cannot bring a separator back. */
  lemma TrimKeepsClean(t: string)
    requires NoSeparators(t)
    ensures IsCleanName(Trim(t))
  {
    var left := TrimLeft(t);
    var r := TrimRight(left);
    assert forall k | 0 <= k < |r| :: r[k] == left[k];
    assert forall k | 0 <= k < |left| :: left[k] == t[|t| - |left| + k];
  }

  /** The joined groups with separators replaced and underscores trimmed. */
  function Sanitise(joined: string): (r: string)
    ensures IsCleanName(r)
  {
    SeparatorsReplaced(joined);
    TrimKeepsClean(ReplaceSeparators(joined));
    Trim(ReplaceSeparators(joined))
  }

  /** Some position of `node` starts a match. */
  predicate HasMatch(node: string) {
    exists i | 0 <= i <= |node| :: MatchAt(node, i).Some?
  }

  /** `nodeNameToMetricName`: `None` where the program stops with "Unable to
      parse node name". */
  function MetricName(node: string): (r: Option<string>)
    ensures r.Some? <==> HasMatch(node)
    ensures r.Some? ==> IsCleanName(r.value)
  {
    match FindMatch(node)
    case None => None
    case Some((g1, g2)) => Some(Sanitise(g1 + "_" + g2))
  }

  /** The name is built from the leftmost match's groups. */
  lemma MetricNameFromMatch(node: string, i: nat, g1: string, g2: string)
    requires i <= |node| && IsMatch(node, i, g1, g2)
    requires forall k | 0 <= k < i :: MatchAt(node, k).None?
    ensures MetricName(node) == Some(Sanitise(g1 + "_" + g2))
  {
    MatchAtMeans(node, i, g1, g2);
  }

  /** A position whose next three characters are not `s=[` starts no
      match. */
  lemma NoMatchAt(s: string, i: nat)
    requires i + 3 <= |s|
    requires s[i] != 's' || s[i + 1] != '=' || s[i + 2] != '['
    ensures MatchAt(s, i).None?
  {
  }

  /** A node of the form `pre` `s=[` `g1` `]` `g2`, with no `[` before the
      match, is named by its two groups; `g1` must avoid `]` and `g2` must
      avoid `;` for the whole of them to be captured. */
  lemma MetricNameOfParts(pre: string, g1: string, g2: string)
    requires forall k | 0 <= k < |pre| :: pre[k] != '['
    requires |g1| > 0 && forall k | 0 <= k < |g1| :: g1[k] != ']'
    requires |g2| > 0 && forall k | 0 <= k < |g2| :: g2[k] != ';'
    ensures MetricName(pre + "s=[" + g1 + "]" + g2) == Some(Sanitise(g1 + "_" + g2))
  {
    var node := pre + "s=[" + g1 + "]" + g2;
    var i := |pre|;
    assert node[i..i + 3] == "s=[";
    assert node[i + 3..i + 3 + |g1|] == g1;
    assert node[i + 4 + |g1|..] == g2;
    assert IsMatch(node, i, g1, g2);
    forall k | 0 <= k < i
      ensures MatchAt(node, k).None?
    {
      if k + 2 < i {
        assert node[k + 2] == pre[k + 2];
      } else {
        assert node[k + 2] == "s="[k + 2 - i];
      }
      NoMatchAt(node, k);
    }
    MetricNameFromMatch(node, i, g1, g2);
  }

  /** Replacing separators works character by character, so it distributes
      over concatenation. */
  lemma ReplaceAppend(a: string, b: string)
    ensures ReplaceSeparators(a + b) == ReplaceSeparators(a) + ReplaceSeparators(b)
  {
  }

  /** A string without separators is left as it is. */
  lemma ReplaceClean(a: string)
    requires NoSeparators(a)
    ensures ReplaceSeparators(a) == a
  {
  }

  /** A single trailing `_` after a name without `_` at its ends is what
      trimming removes. */
  lemma TrimTrailing(x: string)
    requires x != [] && x[0] != '_' && x[|x| - 1] != '_'
    ensures Trim(x + "_") == x
  {
    assert TrimLeft(x + "_") == x + "_";
    assert (x + "_")[..|x|] == x;
  }

  /** The node name of the exporter's parsing test,
      `ns=1;s=[L2S2_TMCP]Lift_Station_Consume.Alarms[3]`, becomes
      `L2S2_TMCP_Lift_Station_Consume_Alarms_3`. Both strings are written
      as concatenations of their parts. */
  lemma ParseVector()
    ensures MetricName("ns=1;" + "s=[" + "L2S2_TMCP" + "]" + ("Lift_Station_Consume" + "." + "Alarms" + "[3]"))
      == Some("L2S2_TMCP" + "_" + "Lift_Station_Consume" + "_" + "Alarms" + "_3")
  {
    var g1 := "L2S2_TMCP";
    var head := "Lift_Station_Consume";
    var g2 := head + "." + "Alarms" + "[3]";
    assert forall k | 0 <= k < |g2| :: g2[k] != ';' by {
      assert forall k | 0 <= k < |head| :: head[k] != ';';
    }
    MetricNameOfParts("ns=1;", g1, g2);
    VectorReplace();
    TrimTrailing("L2S2_TMCP" + "_" + head + "_" + "Alarms" + "_3");
  }

  /** The joined groups of the parsing test with their separators
      replaced. */
  lemma VectorReplace()
    ensures ReplaceSeparators("L2S2_TMCP" + "_" + ("Lift_Station_Consume" + "." + "Alarms" + "[3]"))
      == "L2S2_TMCP" + "_" + "Lift_Station_Consume" + "_" + "Alarms" + "_3" + "_"
  {
    var head := "Lift_Station_Consume";
    assert "_3_" == "_3" + "_";
    Regroup("L2S2_TMCP", "_", head, "_", "Alarms", "_3", "_");
    ReplaceAppend("L2S2_TMCP" + "_", head + "." + "Alarms" + "[3]");
    ReplaceAppend(head + "." + "Alarms", "[3]");
    ReplaceAppend(head + ".", "Alarms");
    ReplaceAppend(head, ".");
    VectorPieces();
  }

  lemma Regroup(a: string, b: string, c: string, d: string, e: string, f: string, g: string)
    ensures (a + b) + (((c + d) + e) + (f + g)) == a + b + c + d + e + f + g
  {
  }

  lemma VectorPieces()
    ensures ReplaceSeparators("L2S2_TMCP" + "_") == "L2S2_TMCP" + "_"
    ensures ReplaceSeparators("Lift_Station_Consume") == "Lift_Station_Consume"
    ensures ReplaceSeparators("Alarms") == "Alarms"
    ensures ReplaceSeparators(".") == "_" && ReplaceSeparators("[3]") == "_3_"
  {
    ReplaceClean("L2S2_TMCP" + "_");
    ReplaceClean("Lift_Station_Consume");
    ReplaceClean("Alarms");
  }

  /** The gauges for the first `n` nodes, each named by `nameOf` under
      the prefix, stored in order; `None` as soon as a node has no name. */
  function Gauges(prefix: string, nodes: seq<string>, n: nat, nameOf: string -> Option<string>): Option<map<string, Gauge>>
    requires n <= |nodes|
  {
    if n == 0 then Some(map[])
    else
      match Gauges(prefix, nodes, n - 1, nameOf)
      case None => None
      case Some(m) =>
        match nameOf(nodes[n - 1])
        case None => None
        case Some(name) => Some(m[nodes[n - 1] := NewGauge(PrefixedName(prefix, name))])
  }

  /** The gauges fail exactly when one of the nodes has no name. */
  lemma {:induction false} GaugesFail(prefix: string, nodes: seq<string>, n: nat, nameOf: string -> Option<string>)
    requires n <= |nodes|
    ensures Gauges(prefix, nodes, n, nameOf).None? <==> exists j | 0 <= j < n :: nameOf(nodes[j]).None?
  {
    if n > 0 {
      GaugesFail(prefix, nodes, n - 1, nameOf);
      if Gauges(prefix, nodes, n, nameOf).None? && Gauges(prefix, nodes, n - 1, nameOf).Some? {
        assert nameOf(nodes[n - 1]).None?;
      }
    }
  }

  /** When they succeed, there is one gauge per node. */
  lemma {:induction false} GaugesKeys(prefix: string, nodes: seq<string>, n: nat, nameOf: string -> Option<string>)
    requires n <= |nodes| && Gauges(prefix, nodes, n, nameOf).Some?
    ensures Gauges(prefix, nodes, n, nameOf).value.Keys == set j | 0 <= j < n :: nodes[j]
  {
    if n > 0 {
      GaugesKeys(prefix, nodes, n - 1, nameOf);
      IndexSetSnoc(nodes, n);
    }
  }

  lemma IndexSetSnoc(nodes: seq<string>, n: nat)
    requires 0 < n <= |nodes|
    ensures (set j | 0 <= j < n :: nodes[j]) == (set j | 0 <= j < n - 1 :: nodes[j]) + {nodes[n - 1]}
  {
  }

  lemma IndexSetAll(nodes: seq<string>)
    ensures (set j | 0 <= j < |nodes| :: nodes[j]) == set n | n in nodes
  {
  }

  /** Each gauge is named by the prefix rule from its node's name. */
  lemma {:induction false} GaugesNamed(prefix: string, nodes: seq<string>, n: nat, nameOf: string -> Option<string>)
    requires n <= |nodes| && Gauges(prefix, nodes, n, nameOf).Some?
    ensures forall node | node in Gauges(prefix, nodes, n, nameOf).value ::
      nameOf(node).Some? && Gauges(prefix, nodes, n, nameOf).value[node] == NewGauge(PrefixedName(prefix, nameOf(node).value))
  {
    if n > 0 {
      GaugesNamed(prefix, nodes, n - 1, nameOf);
    }
  }

  /** The reference definition's meaning over all the nodes: it fails
      exactly when some node has no name, and otherwise holds one correctly
      named gauge per node. */
  lemma GaugesMeans(prefix: string, nodes: seq<string>, nameOf: string -> Option<string>)
    ensures Gauges(prefix, nodes, |nodes|, nameOf).None? <==> exists n | n in nodes :: nameOf(n).None?
    ensures Gauges(prefix, nodes, |nodes|, nameOf).Some? ==>
      Gauges(prefix, nodes, |nodes|, nameOf).value.Keys == set n | n in nodes
    ensures Gauges(prefix, nodes, |nodes|, nameOf).Some? ==> forall n | n in Gauges(prefix, nodes, |nodes|, nameOf).value ::
      nameOf(n).Some? && Gauges(prefix, nodes, |nodes|, nameOf).value[n] == NewGauge(PrefixedName(prefix, nameOf(n).value))
  {
    GaugesFail(prefix, nodes, |nodes|, nameOf);
    if exists n | n in nodes :: nameOf(n).None? {
      var n :| n in nodes && nameOf(n).None?;
      var j :| 0 <= j < |nodes| && nodes[j] == n;
    }
    if Gauges(prefix, nodes, |nodes|, nameOf).Some? {
      GaugesKeys(prefix, nodes, |nodes|, nameOf);
      IndexSetAll(nodes);
      GaugesNamed(prefix, nodes, |nodes|, nameOf);
    }
  }

  /** The loop of `createMetrics` with the naming rule as a parameter. */
  method BuildGauges(prefix: string, nodes: seq<string>, nameOf: string -> Option<string>)
    returns (r: Option<map<string, Gauge>>)
    ensures r.None? <==> exists n | n in nodes :: nameOf(n).None?
    ensures r.Some? ==> r.value.Keys == set n | n in nodes
    ensures r.Some? ==> forall n | n in r.value ::
      nameOf(n).Some? && r.value[n] == NewGauge(PrefixedName(prefix, nameOf(n).value))
  {
    var m: map<string, Gauge> := map[];
    var i := 0;
    while i < |nodes|
      invariant 0 <= i <= |nodes|
      invariant Gauges(prefix, nodes, i, nameOf) == Some(m)
    {
      var node := nodes[i];
      var name := nameOf(node);
      if name.None? {
        assert node in nodes;
        return None;
      }
      m := m[node := NewGauge(PrefixedName(prefix, name.value))];
      i := i + 1;
    }
    GaugesMeans(prefix, nodes, nameOf);
    r := Some(m);
  }

  /** `createMetrics` of the first exporter: one gauge per node, named by
      the prefix rule from the node's metric name; a node that does not
      parse stops the program, modelled as `None`. */
  method CreateGauges(prefix: string, nodes: seq<string>) returns (r: Option<map<string, Gauge>>)
    ensures r.None? <==> exists n | n in nodes :: MetricName(n).None?
    ensures r.Some? ==> r.value.Keys == set n | n in nodes
    ensures r.Some? ==> forall n | n in r.value ::
      MetricName(n).Some? && r.value[n] == NewGauge(PrefixedName(prefix, MetricName(n).value))
  {
    r := BuildGauges(prefix, nodes, MetricName);
  }
}

=== FILE: opc_value_handler.dfy ===
/** The plain value handler: turns any numeric or boolean variant into the
    float64 a gauge is set to. */
module OpcValueHandler {
  import opened Arith
  import opened Scalars
  import opened Outcomes
  import opened Float64
  import opened Metrics

  /** `boolToFloat`: 1 for true, 0 for false, and an error for a value of
      any other type. A null value has no type to inspect (reflect would
      panic), so it is excluded. */
  function BoolToFloat(s: Scalar): (r: Result<real>)
    requires !s.Null?
    ensures r.Ok? <==> s.Bool?
    ensures r.Ok? ==> (r.value == 1.0 <==> s.b) && (r.value == 0.0 <==> !s.b)
    ensures r.Err? ==> r.error == NotBool(s.KindOf())
  {
    match s
    case Bool(b) => Ok(if b then 1.0 else 0.0)
    case _ => Err(NotBool(s.KindOf()))
  }

  /** `coerceToFloat64`: reflect's conversion to float64 exists for the
      integer and float kinds only. Integers are rounded as `float64(x)`
      rounds; a float32 widens exactly. */
  function CoerceToFloat64(s: Scalar): (r: Result<real>)
    requires !s.Null?
    ensures r.Ok? <==> s.IsInteger() || s.F32? || s.F64?
    ensures s.F32? ==> r == Ok(s.f32)
    ensures s.F64? ==> r == Ok(s.f64)
    ensures r.Err? ==> r.error == Unfloatable(s.KindOf())
  {
    if s.IsInteger() then Ok(ToFloat64(s.IntValue()) as real)
    else if s.F32? then Ok(s.f32)
    else if s.F64? then Ok(s.f64)
    else Err(Unfloatable(s.KindOf()))
  }

  /** `FloatValue`: null is refused, booleans go through `BoolToFloat`,
      everything else through `CoerceToFloat64`. */
  function FloatValue(s: Scalar): (r: Result<real>)
    ensures r.Ok? <==> s.Bool? || s.IsInteger() || s.F32? || s.F64?
    ensures s.Null? ==> r == Err(NullValue)
    ensures s.Bool? ==> r == Ok(if s.b then 1.0 else 0.0)
    ensures (s.Str? || s.Other?) ==> r == Err(Unfloatable(s.KindOf()))
  {
    match s
    case Null => Err(NullValue)
    case Bool(_) => BoolToFloat(s)
    case _ => CoerceToFloat64(s)
  }

  /** An integer of at most 53 bits keeps its exact value. */
  lemma IntegerValueExact(s: Scalar)
    requires s.IsInteger()
    requires Abs(s.IntValue()) < Pow2(Precision)
    ensures FloatValue(s) == Ok(s.IntValue() as real)
  {
    ExactBelowPrecision(s.IntValue());
  }

  /** Every integer is converted as `float64(x)` rounds it, and so lands
      within a relative 2^-53 of its value. */
  lemma IntegerValueClose(s: Scalar)
    requires s.IsInteger()
    ensures FloatValue(s) == Ok(ToFloat64(s.IntValue()) as real)
    ensures Abs(ToFloat64(s.IntValue()) - s.IntValue()) * Pow2(Precision) <= Abs(s.IntValue())
  {
    RelativeError(s.IntValue());
  }

  /** The value handler as `Handle` leaves it: the gauge it sets. */
  datatype Handled = Handled(gauge: Gauge, err: Option<Error>)

  /** `Handle`: on success the gauge is set to the float value; on failure
      the error is returned and the gauge is untouched. */
  function Handle(g: Gauge, s: Scalar): (r: Handled)
    ensures r.gauge.name == g.name
    ensures r.err.None? <==> FloatValue(s).Ok?
    ensures r.err.None? ==> r.gauge.value == FloatValue(s).value
    ensures r.err.Some? ==> r.gauge == g && r.err.value == FloatValue(s).error
  {
    match FloatValue(s)
    case Ok(x) => Handled(g.Set(x), None)
    case Err(e) => Handled(g, Some(e))
  }

  /** The conversions the handler's tests expect. */
  lemma BoolVectors()
    ensures FloatValue(Bool(true)) == Ok(1.0)
    ensures FloatValue(Bool(false)) == Ok(0.0)
    ensures FloatValue(F64(238.4)) == Ok(238.4)
    ensures FloatValue(Str("not a number")).Err?
  {
  }

  lemma SignedVectors()
    ensures FloatValue(I8(-4)) == Ok(-4.0)
    ensures FloatValue(I16(2)) == Ok(2.0)
    ensures FloatValue(I32(33)) == Ok(33.0)
    ensures FloatValue(I64(25)) == Ok(25.0)
  {
    SmallExact(I8(-4));
    SmallExact(I16(2));
    SmallExact(I32(33));
    SmallExact(I64(25));
  }

  lemma UnsignedVectors()
    ensures FloatValue(U8(3)) == Ok(3.0)
    ensures FloatValue(U8(4)) == Ok(4.0)
    ensures FloatValue(U16(2)) == Ok(2.0)
    ensures FloatValue(U32(33)) == Ok(33.0)
    ensures FloatValue(U64(25)) == Ok(25.0)
  {
    SmallExact(U8(3));
    SmallExact(U8(4));
    SmallExact(U16(2));
    SmallExact(U32(33));
    SmallExact(U64(25));
  }

  lemma SmallExact(s: Scalar)
    requires s.IsInteger()
    requires -0x100 < s.IntValue() < 0x100
    ensures FloatValue(s) == Ok(s.IntValue() as real)
  {
    ByteIsExact(s.IntValue());
  }
}

=== FILE: opcua_bitvector_handler.dfy ===
/** The bit-vector handler: serialises a variant with `binary.Write` and
    publishes one bit of it (bit 0 is the least-significant bit of the first
    byte) as 0.0 or 1.0. For the 32-bit value 0xF0F10F0F, bit 16 is the low
    bit of the third byte 0xF1, so it reads 1. */
module OpcuaBitVectorHandler {
  import opened Arith
  import opened Scalars
  import opened Outcomes
  import opened LittleEndian
  import opened Serialisation
  import opened Metrics

  /** `extractBit(bytes, bit)`: a negative index is refused, then an index
      whose byte lies past the end; otherwise the addressed bit, 0 or 1. */
  function ExtractBit(bytes: seq<byte>, bit: int): (r: Result<byte>)
    ensures bit < 0 ==> r == Err(NegativeBitIndex(bit))
    ensures bit >= 0 ==> (r.Ok? <==> bit < 8 * |bytes|)
    ensures bit >= 0 && r.Err? ==> r.error == BitOutOfRange(bit, |bytes|)
    ensures r.Ok? ==> r.value == 0 || r.value == 1
  {
    if bit < 0 then Err(NegativeBitIndex(bit))
    else
      var byteIdx := bit / 8;
      var bitIdx := bit % 8;
      if byteIdx > |bytes| - 1 then Err(BitOutOfRange(bit, |bytes|))
      else
        Ok(ByteBit(bytes[byteIdx], bitIdx))
  }

  /** The extracted bit is binary digit `bit` of the value the bytes encode. */
  lemma ExtractBitDigit(bytes: seq<byte>, bit: int)
    requires ExtractBit(bytes, bit).Ok?
    ensures ExtractBit(bytes, bit).value as int == (FromLE(bytes) / Pow2(bit)) % 2
  {
    BitOfBytes(bytes, bit);
  }

  /** `FloatValue`: serialise, extract, widen; any failure is passed on. A
      null variant makes the serialiser panic, so it is excluded. */
  function FloatValue(bit: int, s: Scalar): (r: Result<real>)
    requires !s.Null?
    ensures r.Ok? ==> r.value == 0.0 || r.value == 1.0
    ensures !(s.IsInteger() || s.Bool?) ==> r == Err(NotSerialisable(s.KindOf()))
    ensures (s.IsInteger() || s.Bool?) && bit < 0 ==> r == Err(NegativeBitIndex(bit))
  {
    var bytes :- VariantToBytes(s);
    var b :- ExtractBit(bytes, bit);
    Ok((b as int) as real)
  }

  /** The central property: for an integer of width w and `0 <= bit < 8w`
      the handler publishes digit `bit` of the value modulo 2^(8w) (two's
      complement for negative values); past the width it fails. */
  lemma FloatValueOfInteger(bit: int, s: Scalar)
    requires s.IsInteger()
    requires bit >= 0
    ensures bit < 8 * s.Width() ==>
      FloatValue(bit, s) == Ok(((s.IntValue() % Pow2(8 * s.Width())) / Pow2(bit) % 2) as real)
    ensures bit >= 8 * s.Width() ==> FloatValue(bit, s) == Err(BitOutOfRange(bit, s.Width()))
  {
    if bit < 8 * s.Width() {
      IntegerBit(bit, s);
    }
  }

  lemma IntegerBit(bit: nat, s: Scalar)
    requires s.IsInteger()
    requires bit < 8 * s.Width()
    ensures FloatValue(bit, s) == Ok(((s.IntValue() % Pow2(8 * s.Width())) / Pow2(bit) % 2) as real)
  {
    var v := s.IntValue();
    var w := s.Width();
    var bytes := ToLE(v, w);
    assert VariantToBytes(s) == Ok(bytes);
    BitOfLEMod(v, w, bit);
    var b := ByteBit(bytes[bit / 8], bit % 8);
    assert ExtractBit(bytes, bit) == Ok(b);
    assert b as int == (v % Pow2(8 * w)) / Pow2(bit) % 2;
  }

  /** A bool is one byte: bit 0 is the bool, bits 1 to 7 are 0, and any
      later bit lies past the byte. */
  lemma FloatValueOfBool(bit: int, b: bool)
    requires bit >= 0
    ensures bit < 8 ==> FloatValue(bit, Bool(b)) == Ok(if bit == 0 && b then 1.0 else 0.0)
    ensures bit >= 8 ==> FloatValue(bit, Bool(b)) == Err(BitOutOfRange(bit, 1))
  {
    var octet: byte := if b then 1 else 0;
    assert VariantToBytes(Bool(b)) == Ok([octet]);
    if bit < 8 {
      var x := ByteBit(octet, bit);
      assert ExtractBit([octet], bit) == Ok(x);
      ByteBitDigit(octet, bit);
      if bit > 0 {
        Pow2Monotone(1, bit);
        assert Pow2(1) == 2;
        DivUnique(octet as int, Pow2(bit), 0, octet as int);
      }
      assert x == 1 <==> bit == 0 && b;
    }
  }

  /** The example in the handler's documentation: bit 16 of the 32-bit
      value 0xF0F10F0F is the low bit of its third byte 0xF1. */
  lemma DocExample()
    ensures FloatValue(16, U32(0xF0F10F0F)) == Ok(1.0)
  {
  }

  /** Results the handler's tests expect, one per lemma. */
  lemma SecondByteVector()
    ensures FloatValue(8, U16(0x0100)) == Ok(1.0)
  {
  }

  lemma SignedSecondByteVector()
    ensures FloatValue(8, I16(0x0100)) == Ok(1.0)
  {
  }

  lemma SignedMixedVector()
    ensures FloatValue(20, I32(0x00100098)) == Ok(1.0)
  {
  }

  lemma SignedClearVector()
    ensures FloatValue(16, I32(0x00100098)) == Ok(0.0)
  {
  }

  lemma TopByteVector()
    ensures FloatValue(56, I64(0x0100000000000000)) == Ok(1.0)
  {
    var bytes: seq<byte> := [0x00, 0x00, 0x00, 0x00, 0x00, 0x00, 0x00, 0x01];
    LongVector();
    assert ExtractBit(bytes, 56) == Ok(ByteBit(bytes[7], 0));
  }

  /** Inputs the handler refuses: a string and a timestamp cannot be
      serialised, and a negative index is refused after serialising. */
  lemma ErrorVectors()
    ensures FloatValue(4, Str("Not a number")) == Err(NotSerialisable(StringKind))
    ensures FloatValue(4, Other("DateTime")) == Err(NotSerialisable(OtherKind("DateTime")))
    ensures FloatValue(-2, I16(78)) == Err(NegativeBitIndex(-2))
  {
  }

  /** The handler's state: its gauge and the bit it publishes. */
  datatype Handler = Handler(gauge: Gauge, extractBit: int)

  /** `Handle`: the gauge is set to the extracted bit on success and left
      alone on failure, whose error is returned. */
  function Handle(h: Handler, s: Scalar): (r: (Handler, Option<Error>))
    requires !s.Null?
    ensures r.0.extractBit == h.extractBit && r.0.gauge.name == h.gauge.name
    ensures r.1.None? <==> FloatValue(h.extractBit, s).Ok?
    ensures r.1.None? ==> r.0.gauge.value == FloatValue(h.extractBit, s).value
    ensures r.1.Some? ==> r.0 == h && r.1.value == FloatValue(h.extractBit, s).error
  {
    match FloatValue(h.extractBit, s)
    case Ok(x) => (h.(gauge := h.gauge.Set(x)), None)
    case Err(e) => (h, Some(e))
  }
}

=== FILE: outcomes.dfy ===
/** Go's `(value, error)` pairs as a failure-compatible Result, and the errors
    the exporter's core can report. */
module Outcomes {
  import opened Scalars

  datatype Option<+T> = None | Some(value: T)

  datatype Error =
    /** A bit index below zero. */
    | NegativeBitIndex(bit: int)
    /** A bit index whose byte lies beyond the serialised value. */
    | BitOutOfRange(bit: int, byteCount: nat)
    /** `binary.Write` refused the value (no fixed-size encoding). */
    | NotSerialisable(kind: Kind)
    /** The unsigned-only serialisers refused the value. */
    | NotUnsignedInteger(kind: Kind)
    /** A null variant cannot become a float. */
    | NullValue
    /** `boolToFloat` was handed something other than a bool. */
    | NotBool(kind: Kind)
    /** The value's type is not convertible to float64. */
    | Unfloatable(kind: Kind)

  datatype Result<+T> = Ok(value: T) | Err(error: Error) {
    predicate IsFailure() {
      Err?
    }

    function PropagateFailure<U>(): Result<U>
      requires Err?
    {
      Err(error)
    }

    function Extract(): T
      requires Ok?
    {
      value
    }
  }
}

=== FILE: registry.dfy ===
/** The exporter's handler registry: one handler per configured node, built
    from the node configs, and the monitor loop that routes subscription
    messages to it and counts read timeouts. */
module Registry {
  import opened Arith
  import opened Scalars
  import opened Outcomes
  import opened Metrics
  import opened Handlers

  /** `NodeConfig`: the node to subscribe to, the metric it feeds, and an
      optional bit to extract. JSON numbers decode as float64, so the bit
      index arrives as a real. */
  datatype NodeConfig = NodeConfig(nodeName: string, metricName: string, extractBit: Option<real>)

  /** `handlerMapRecord`: the config a handler was built from, and the
      handler. */
  datatype Record = Record(config: NodeConfig, handler: MsgHandler)

  type HandlerMap = map<string, Record>

  /** Go's `int(x)` on a float64: the fraction is dropped, rounding toward
      zero. */
  function TruncateToInt(x: real): (r: int)
    ensures 0.0 <= x ==> r as real <= x < r as real + 1.0
    ensures x < 0.0 ==> r as real - 1.0 < x <= r as real
  {
    if x >= 0.0 then x.Floor else -((-x).Floor)
  }

  /** `createHandler`: a gauge named by the prefix rule, fed by a bit-vector
      handler exactly when the config names a bit, by the value handler
      otherwise. */
  function CreateHandler(prefix: string, c: NodeConfig): (h: MsgHandler)
    ensures h.BitVectorHandler? <==> c.extractBit.Some?
    ensures h.BitVectorHandler? ==> h.extractBit == TruncateToInt(c.extractBit.value)
    ensures h.gauge == NewGauge(PrefixedName(prefix, c.metricName))
  {
    var g := NewGauge(PrefixedName(prefix, c.metricName));
    if c.extractBit.Some? then BitVectorHandler(g, TruncateToInt(c.extractBit.value))
    else ValueHandler(g)
  }

  /** Handler choices for the configs of the exporter's config tests: no
      bit gives a value handler, the bit 4.0 gives a bit-vector handler on
      bit 4, and a prefix is joined with an underscore. */
  lemma CreateHandlerVectors()
    ensures CreateHandler("", NodeConfig("foo", "bar", None)) == ValueHandler(Gauge("bar", 0.0))
    ensures CreateHandler("", NodeConfig("baz", "bak", Some(4.0))) == BitVectorHandler(Gauge("bak", 0.0), 4)
    ensures CreateHandler("opcua", NodeConfig("foo", "bar", None)).gauge.name == "opcua_bar"
    ensures TruncateToInt(2.7) == 2 && TruncateToInt(-2.7) == -2
  {
  }

  /** The record `createMetrics` stores for one config: the config itself,
      with a handler whose kind follows the config's bit and whose gauge is
      named by the prefix rule from the config's metric name. */
  function RecordFor(prefix: string, c: NodeConfig): (r: Record)
    ensures r.config == c
    ensures r.handler.BitVectorHandler? <==> c.extractBit.Some?
    ensures r.handler.gauge.name == PrefixedName(prefix, c.metricName) && r.handler.gauge.value == 0.0
  {
    Record(c, CreateHandler(prefix, c))
  }

  /** The last config in `cs` for node `name`, if any: the one a map keyed
      by node name keeps when the configs are stored in order. */
  function LastConfig(cs: seq<NodeConfig>, name: string): (r: Option<NodeConfig>)
    ensures r.Some? ==> r.value in cs && r.value.nodeName == name
    ensures r.None? <==> forall c | c in cs :: c.nodeName != name
    decreases |cs|
  {
    if cs == [] then None
    else if cs[|cs| - 1].nodeName == name then Some(cs[|cs| - 1])
    else LastConfig(cs[..|cs| - 1], name)
  }

  /** A config that no later config for the same node follows is the one
      kept; every earlier config for its node is replaced. */
  lemma {:induction false} LaterReplaces(cs: seq<NodeConfig>, i: nat)
    requires i < |cs|
    requires forall j | i < j < |cs| :: cs[j].nodeName != cs[i].nodeName
    ensures LastConfig(cs, cs[i].nodeName) == Some(cs[i])
    decreases |cs|
  {
    if i < |cs| - 1 {
      var init := cs[..|cs| - 1];
      assert init[i] == cs[i];
      LaterReplaces(init, i);
    }
  }

  /** `createMetrics`: one record per node name, built from the last config
      that names the node. */
  method CreateMetrics(prefix: string, configs: seq<NodeConfig>) returns (m: HandlerMap)
    ensures m.Keys == set c | c in configs :: c.nodeName
    ensures forall name | name in m ::
      LastConfig(configs, name).Some? && m[name] == RecordFor(prefix, LastConfig(configs, name).value)
  {
    m := map[];
    var i := 0;
    while i < |configs|
      invariant 0 <= i <= |configs|
      invariant m.Keys == set c | c in configs[..i] :: c.nodeName
      invariant forall name | name in m ::
        LastConfig(configs[..i], name).Some? && m[name] == RecordFor(prefix, LastConfig(configs[..i], name).value)
    {
      var c := configs[i];
      m := m[c.nodeName := RecordFor(prefix, c)];
      assert configs[..i + 1][..i] == configs[..i];
      i := i + 1;
    }
    assert configs[..i] == configs;
  }

  /** A subscription message: the node it is about, a channel error if the
      subscription failed, and the value if one arrived. */
  datatype Message = Message(nodeId: string, error: Option<string>, value: Option<Scalar>)

  /** What the monitor did with a message: logged a channel error, logged a
      missing value, or handed the value to the node's handler, whose error
      (if any) is logged and not passed on. */
  datatype Delivery = ChannelError | NilValue | Delivered(err: Option<Error>)

  /** A message that reaches a handler: no channel error, and a value. */
  predicate Deliverable(msg: Message) {
    msg.error.None? && msg.value.Some?
  }

  /** A message the registry can take without panicking: a deliverable
      message names a registered node whose handler can take its value. */
  predicate Serves(m: HandlerMap, msg: Message) {
    Deliverable(msg) ==> msg.nodeId in m && CanHandle(m[msg.nodeId].handler, msg.value.value)
  }

  /** Two registries with the same nodes, each served by the same handler
      variant. */
  predicate SameKinds(a: HandlerMap, b: HandlerMap) {
    && a.Keys == b.Keys
    && forall k | k in a :: a[k].handler.BitVectorHandler? == b[k].handler.BitVectorHandler?
  }

  /** The message branch of the monitor loop. Looking up an unregistered
      node yields a nil handler and a panic, and a bit-vector handler panics
      on a null value, so a deliverable message must avoid both. */
  function HandleMessage(m: HandlerMap, msg: Message): (r: (HandlerMap, Delivery))
    requires Serves(m, msg)
    ensures SameKinds(r.0, m)
    ensures msg.error.Some? ==> r == (m, ChannelError)
    ensures msg.error.None? && msg.value.None? ==> r == (m, NilValue)
    ensures Deliverable(msg) ==>
      && (forall k | k in m && k != msg.nodeId :: r.0[k] == m[k])
      && r.0[msg.nodeId].config == m[msg.nodeId].config
      && r.0[msg.nodeId].handler == Handle(m[msg.nodeId].handler, msg.value.value).0
      && r.1 == Delivered(Handle(m[msg.nodeId].handler, msg.value.value).1)
  {
    if msg.error.Some? then (m, ChannelError)
    else if msg.value.None? then (m, NilValue)
    else
      var rec := m[msg.nodeId];
      var (h, err) := Handle(rec.handler, msg.value.value);
      (m[msg.nodeId := rec.(handler := h)], Delivered(err))
  }

  /** What the monitor loop waits for. */
  datatype Event = Received(msg: Message) | ReadTimeout | Done

  /** The loop runs until the context is done (`Stopped`) or too many read
      timeouts end the program (`Quit`). */
  datatype Status = Running | Stopped | Quit

  datatype Monitor = Monitor(handlers: HandlerMap, timeouts: nat, status: Status)

  /** The monitor as `setupMonitor` starts it: no timeouts yet. */
  function Start(handlers: HandlerMap): (mon: Monitor)
    ensures mon.handlers == handlers && mon.timeouts == 0 && mon.status == Running
  {
    Monitor(handlers, 0, Running)
  }

  /** An event the current handlers can take without panicking. */
  predicate Accepts(m: HandlerMap, e: Event) {
    e.Received? ==> Serves(m, e.msg)
  }

  /** Whether an event can be taken depends only on the nodes and their
      handler variants. */
  lemma AcceptsKinds(a: HandlerMap, b: HandlerMap, events: seq<Event>)
    requires SameKinds(b, a)
    requires forall e | e in events :: Accepts(a, e)
    ensures forall e | e in events :: Accepts(b, e)
  {
    forall e | e in events
      ensures Accepts(b, e)
    {
      if e.Received? && Deliverable(e.msg) {
        assert e.msg.nodeId in a;
      }
    }
  }

  /** One turn of the loop. A received message is handled and does not touch
      the timeout count; a timeout adds one and quits when a positive limit
      is reached; the context's end stops the loop. */
  function Step(maxTimeouts: int, mon: Monitor, e: Event): (r: Monitor)
    requires mon.status == Running
    requires Accepts(mon.handlers, e)
    ensures SameKinds(r.handlers, mon.handlers)
    ensures e.Done? ==> r == mon.(status := Stopped)
    ensures e.Received? ==> r.timeouts == mon.timeouts && r.status == Running
    ensures e.Received? ==> r.handlers == HandleMessage(mon.handlers, e.msg).0
    ensures e.ReadTimeout? ==> r.handlers == mon.handlers && r.timeouts == mon.timeouts + 1
    ensures e.ReadTimeout? ==> (r.status == Quit <==> maxTimeouts > 0 && r.timeouts >= maxTimeouts)
    ensures e.ReadTimeout? ==> r.status != Stopped
  {
    match e
    case Done => mon.(status := Stopped)
    case Received(msg) => mon.(handlers := HandleMessage(mon.handlers, msg).0)
    case ReadTimeout =>
      var count := mon.timeouts + 1;
      if maxTimeouts > 0 && count >= maxTimeouts then Monitor(mon.handlers, count, Quit)
      else mon.(timeouts := count)
  }

  /** A message reaches the loop's handlers: a channel error or a missing
      value leaves the loop as it was, and otherwise exactly the message's
      node has its handler run on the value. */
  lemma MessageDispatched(maxTimeouts: int, mon: Monitor, msg: Message)
    requires mon.status == Running && Serves(mon.handlers, msg)
    ensures !Deliverable(msg) ==> Step(maxTimeouts, mon, Received(msg)) == mon
    ensures Deliverable(msg) ==>
      var r := Step(maxTimeouts, mon, Received(msg));
      && r.handlers[msg.nodeId].handler == Handle(mon.handlers[msg.nodeId].handler, msg.value.value).0
      && forall k | k in mon.handlers && k != msg.nodeId :: r.handlers[k] == mon.handlers[k]
  {
  }

  /** The loop over a sequence of events; once it has stopped or quit the
      remaining events are never looked at. */
  function Run(maxTimeouts: int, mon: Monitor, events: seq<Event>): (r: Monitor)
    requires forall e | e in events :: Accepts(mon.handlers, e)
    ensures SameKinds(r.handlers, mon.handlers)
    ensures mon.status != Running ==> r == mon
    decreases |events|
  {
    if mon.status != Running || events == [] then mon
    else
      var next := Step(maxTimeouts, mon, events[0]);
      AcceptsKinds(mon.handlers, next.handlers, events[1..]);
      Run(maxTimeouts, next, events[1..])
  }

  /** The number of read timeouts among the events. */
  function Timeouts(events: seq<Event>): nat {
    if events == [] then 0
    else (if events[0].ReadTimeout? then 1 else 0) + Timeouts(events[1..])
  }

  /** The monitor's invariant: a running loop with a positive limit is still
      below it. */
  predicate BelowLimit(maxTimeouts: int, mon: Monitor) {
    mon.status == Running && maxTimeouts > 0 ==> mon.timeouts < maxTimeouts
  }

  /** Without the context ending, the loop quits exactly when the timeouts
      reach a positive limit; received messages never reset the count. */
  lemma {:induction false} QuitsExactlyAtLimit(maxTimeouts: int, mon: Monitor, events: seq<Event>)
    requires mon.status == Running && BelowLimit(maxTimeouts, mon)
    requires forall e | e in events :: Accepts(mon.handlers, e) && !e.Done?
    ensures Run(maxTimeouts, mon, events).status == Quit
      <==> maxTimeouts > 0 && mon.timeouts + Timeouts(events) >= maxTimeouts
    decreases |events|
  {
    if events != [] {
      var next := Step(maxTimeouts, mon, events[0]);
      assert forall e | e in events[1..] :: e in events;
      if next.status == Running {
        QuitsExactlyAtLimit(maxTimeouts, next, events[1..]);
      } else {
        assert next.status == Quit;
        assert Run(maxTimeouts, next, events[1..]) == next;
      }
    }
  }

  /** A limit of zero or less disables quitting. */
  lemma {:induction false} NeverQuitsWhenDisabled(maxTimeouts: int, mon: Monitor, events: seq<Event>)
    requires maxTimeouts <= 0 && mon.status != Quit
    requires forall e | e in events :: Accepts(mon.handlers, e)
    ensures Run(maxTimeouts, mon, events).status != Quit
    decreases |events|
  {
    if mon.status == Running && events != [] {
      var next := Step(maxTimeouts, mon, events[0]);
      assert forall e | e in events[1..] :: e in events;
      NeverQuitsWhenDisabled(maxTimeouts, next, events[1..]);
    }
  }

  /** While the loop keeps running, every read timeout is counted. */
  lemma {:induction false} TimeoutsCounted(maxTimeouts: int, mon: Monitor, events: seq<Event>)
    requires forall e | e in events :: Accepts(mon.handlers, e)
    requires Run(maxTimeouts, mon, events).status == Running
    ensures Run(maxTimeouts, mon, events).timeouts == mon.timeouts + Timeouts(events)
    decreases |events|
  {
    if events != [] {
      var next := Step(maxTimeouts, mon, events[0]);
      assert forall e | e in events[1..] :: e in events;
      TimeoutsCounted(maxTimeouts, next, events[1..]);
    }
  }
}

=== FILE: scalars.dfy ===
/** The value carried by an OPC UA variant, as a closed tagged union over the
    kinds the exporter distinguishes. Integer payloads are confined to the
    range of their declared Go type; floats are carried as the finite real
    they denote (no IEEE bit pattern). */
module Scalars {
  import opened Arith

  type Int8 = x: int | -0x80 <= x < 0x80
  type Int16 = x: int | -0x8000 <= x < 0x8000
  type Int32 = x: int | -0x8000_0000 <= x < 0x8000_0000
  type Int64 = x: int | -0x8000_0000_0000_0000 <= x < 0x8000_0000_0000_0000
  type Uint8 = x: int | 0 <= x < 0x100
  type Uint16 = x: int | 0 <= x < 0x1_0000
  type Uint32 = x: int | 0 <= x < 0x1_0000_0000
  type Uint64 = x: int | 0 <= x < 0x1_0000_0000_0000_0000

  /** The runtime type a value reports; error messages name it. */
  datatype Kind =
    | NullKind | BooleanKind
    | Int8Kind | Int16Kind | Int32Kind | Int64Kind
    | Uint8Kind | Uint16Kind | Uint32Kind | Uint64Kind
    | Float32Kind | Float64Kind
    | StringKind
    | OtherKind(name: string)

  datatype Scalar =
    | Null
    | Bool(b: bool)
    | I8(i8: Int8) | I16(i16: Int16) | I32(i32: Int32) | I64(i64: Int64)
    | U8(u8: Uint8) | U16(u16: Uint16) | U32(u32: Uint32) | U64(u64: Uint64)
    | F32(f32: real) | F64(f64: real)
    | Str(s: string)
    /** Any other variant payload (a date, a GUID, ...), known only by its
        type name; the model neither converts nor serialises it. */
    | Other(typeName: string)
  {
    function KindOf(): Kind {
      match this
      case Null => NullKind
      case Bool(_) => BooleanKind
      case I8(_) => Int8Kind
      case I16(_) => Int16Kind
      case I32(_) => Int32Kind
      case I64(_) => Int64Kind
      case U8(_) => Uint8Kind
      case U16(_) => Uint16Kind
      case U32(_) => Uint32Kind
      case U64(_) => Uint64Kind
      case F32(_) => Float32Kind
      case F64(_) => Float64Kind
      case Str(_) => StringKind
      case Other(n) => OtherKind(n)
    }

    predicate IsUnsigned() {
      U8? || U16? || U32? || U64?
    }

    predicate IsSigned() {
      I8? || I16? || I32? || I64?
    }

    predicate IsInteger() {
      IsSigned() || IsUnsigned()
    }

    /** Size in bytes of the declared Go integer type. */
    function Width(): (w: nat)
      requires IsInteger()
      ensures w == 1 || w == 2 || w == 4 || w == 8
    {
      if I8? || U8? then 1
      else if I16? || U16? then 2
      else if I32? || U32? then 4
      else 8
    }

    /** The mathematical value of an integer payload: it lies in the range of
        its declared type (two's complement range for signed kinds). */
    function IntValue(): (v: int)
      requires IsInteger()
      ensures InRange(v, Width(), IsSigned())
    {
      match this
      case I8(x) => x
      case I16(x) => x
      case I32(x) => x
      case I64(x) => x
      case U8(x) => x
      case U16(x) => x
      case U32(x) => x
      case U64(x) => x
    }
  }

  /** 2^(8w), the number of values of a `w`-byte integer type. */
  function Modulus(w: nat): nat {
    if w == 1 then 0x100
    else if w == 2 then 0x1_0000
    else if w == 4 then 0x1_0000_0000
    else 0x1_0000_0000_0000_0000
  }

  /** The values of a `w`-byte Go integer type. */
  predicate InRange(v: int, w: nat, signed: bool) {
    if signed then -(Modulus(w) / 2) <= v < Modulus(w) / 2
    else 0 <= v < Modulus(w)
  }

  lemma ModulusIsPow2(w: nat)
    requires w == 1 || w == 2 || w == 4 || w == 8
    ensures Modulus(w) == Pow2(8 * w)
    ensures Modulus(w) / 2 == Pow2(8 * w - 1)
  {
    if w == 1 { Pow2Byte(); }
    else if w == 2 { Pow2Short(); }
    else if w == 4 { Pow2Word(); }
    else { Pow2Long(); }
  }
}

=== FILE: serialisation.dfy ===
/** The two ways the exporter turns a variant into little-endian bytes: the
    unsigned-only type switch of the extraction helpers, and `binary.Write`
    as the bit-vector handler uses it. */
module Serialisation {
  import opened Arith
  import opened Scalars
  import opened Outcomes
  import opened LittleEndian
  import LayoutVectors

  /** `uintToByteString` / `uintToByteArray`: only the four unsigned kinds are
      accepted, each written in exactly its own width. */
  function UintToBytes(s: Scalar): (r: Result<seq<byte>>)
    ensures r.Ok? <==> s.IsUnsigned()
    ensures r.Ok? ==> |r.value| == s.Width()
    ensures r.Err? ==> r.error == NotUnsignedInteger(s.KindOf())
  {
    if s.IsUnsigned() then Ok(ToLE(s.IntValue(), s.Width()))
    else Err(NotUnsignedInteger(s.KindOf()))
  }

  /** The unsigned bytes decode back to the value they were made from. */
  lemma UintToBytesDecodes(s: Scalar)
    requires s.IsUnsigned()
    ensures FromLE(UintToBytes(s).value) == s.IntValue()
  {
    EncodeInteger(s);
  }

  /** What encoding an integer payload in its declared width preserves. */
  lemma EncodeInteger(s: Scalar)
    requires s.IsInteger()
    ensures FromLE(ToLE(s.IntValue(), s.Width())) == s.IntValue() % Pow2(8 * s.Width())
    ensures s.IsUnsigned() ==> FromLE(ToLE(s.IntValue(), s.Width())) == s.IntValue()
    ensures s.IsSigned() ==> SignedFromLE(ToLE(s.IntValue(), s.Width())) == s.IntValue()
  {
    var w := s.Width();
    var v := s.IntValue();
    ModulusIsPow2(w);
    FromToLE(v, w);
    if s.IsSigned() {
      SignedRoundTrip(v, w);
    } else {
      UnsignedRoundTrip(v, w);
    }
  }

  /** `variantToByteArray`: `binary.Write(buf, binary.LittleEndian, v.Value())`.
      Integers of either signedness come out in their declared width; a bool
      is one byte, 1 or 0; the other modelled kinds are refused. A null
      variant's value is `nil`, on which `binary.Write`'s reflection panics,
      so it is excluded. */
  function VariantToBytes(s: Scalar): (r: Result<seq<byte>>)
    requires !s.Null?
    ensures r.Ok? <==> s.IsInteger() || s.Bool?
    ensures s.IsInteger() ==> r.Ok? && |r.value| == s.Width()
    ensures s.Bool? ==> r.Ok? && |r.value| == 1 && (r.value[0] == 1 <==> s.b)
    ensures r.Err? ==> r.error == NotSerialisable(s.KindOf())
  {
    if s.IsInteger() then Ok(ToLE(s.IntValue(), s.Width()))
    else if s.Bool? then Ok([if s.b then 1 else 0])
    else Err(NotSerialisable(s.KindOf()))
  }

  /** The integer bytes decode back to the value: as unsigned for unsigned
      kinds, as two's complement for signed kinds; read unsigned, they are
      the value modulo 2^(8w). */
  lemma VariantToBytesDecodes(s: Scalar)
    requires s.IsInteger()
    ensures s.IsUnsigned() ==> FromLE(VariantToBytes(s).value) == s.IntValue()
    ensures s.IsSigned() ==> SignedFromLE(VariantToBytes(s).value) == s.IntValue()
    ensures FromLE(VariantToBytes(s).value) == s.IntValue() % Pow2(8 * s.Width())
  {
    EncodeInteger(s);
  }

  /** Both serialisers agree wherever the unsigned one is defined. */
  lemma UintAgreesWithVariant(s: Scalar)
    requires s.IsUnsigned()
    ensures UintToBytes(s) == VariantToBytes(s)
  {
  }

  /** An unfolding step, not a property: the integer branch of
      `VariantToBytes`, stated on its own so that the byte-layout vectors
      and the signedness comparison can use it without the other branches. */
  lemma IntegerBytes(s: Scalar)
    requires s.IsInteger()
    ensures VariantToBytes(s) == Ok(ToLE(s.IntValue(), s.Width()))
  {
  }

  /** The byte layouts the handler's tests expect of `variantToByteArray`. */
  lemma ByteVector()
    ensures VariantToBytes(I8(0x38)) == Ok([0x38])
  {
    LayoutVectors.Byte();
    IntegerBytes(I8(0x38));
  }

  lemma ShortVectors()
    ensures VariantToBytes(I16(0x0000)) == Ok([0x00, 0x00])
    ensures VariantToBytes(I16(0x0102)) == Ok([0x02, 0x01])
    ensures VariantToBytes(I16(0x0001)) == Ok([0x01, 0x00])
  {
    LayoutVectors.Shorts();
    IntegerBytes(I16(0x0000));
    IntegerBytes(I16(0x0102));
    IntegerBytes(I16(0x0001));
  }

  lemma NegativeShortVectors()
    ensures VariantToBytes(I16(-1)) == Ok([0xff, 0xff])
    ensures VariantToBytes(I16(-4)) == Ok([0xfc, 0xff])
  {
    LayoutVectors.NegativeShorts();
    IntegerBytes(I16(-1));
    IntegerBytes(I16(-4));
  }

  lemma WordVectors()
    ensures VariantToBytes(I32(0x0001)) == Ok([0x01, 0x00, 0x00, 0x00])
    ensures VariantToBytes(I32(0x00010001)) == Ok([0x01, 0x00, 0x01, 0x00])
  {
    LayoutVectors.Words();
    IntegerBytes(I32(0x0001));
    IntegerBytes(I32(0x00010001));
  }

  lemma LongVector()
    ensures VariantToBytes(I64(0x0100000000000000))
         == Ok([0x00, 0x00, 0x00, 0x00, 0x00, 0x00, 0x00, 0x01])
  {
    LayoutVectors.Long();
    IntegerBytes(I64(0x0100000000000000));
  }
}

=== FILE: snapshots.dfy ===
/** How the three extraction snapshots relate: where their accepted inputs
    overlap they read the same bit. */
module Snapshots {
  import opened Scalars
  import opened Outcomes
  import opened Serialisation
  import ExtractBitUint8
  import ExtractBitInt
  import OpcuaBitVectorHandler

  /** The `uint8`-index helper and the `int`-index helper agree on every
      index the older one can express: the older bound `len - 1`, taken as
      a `uint8`, never wraps because a serialised value has at least one
      byte. */
  lemma HelpersAgree(s: Scalar, bit: Uint8)
    ensures ExtractBitUint8.ExtractBit(s, bit) == ExtractBitInt.ExtractBit(s, bit)
  {
  }

  /** On an unsigned value the later helper reads the same bit as the
      handler's extraction from `binary.Write`'s bytes, and fails with the
      same error. */
  lemma HandlerAgrees(s: Scalar, bit: int)
    requires s.IsUnsigned()
    ensures ExtractBitInt.ExtractBit(s, bit)
         == OpcuaBitVectorHandler.ExtractBit(VariantToBytes(s).value, bit)
  {
  }

  /** The handler publishes the helper's bit whenever the helper succeeds,
      and fails whenever it fails on an unsigned value. */
  lemma FloatValueAgrees(s: Scalar, bit: int)
    requires s.IsUnsigned()
    ensures ExtractBitInt.ExtractBit(s, bit).Ok? ==>
      OpcuaBitVectorHandler.FloatValue(bit, s) == Ok(ExtractBitInt.ExtractBit(s, bit).value as int as real)
    ensures ExtractBitInt.ExtractBit(s, bit).Err? ==>
      OpcuaBitVectorHandler.FloatValue(bit, s) == Err(ExtractBitInt.ExtractBit(s, bit).error)
  {
    HandlerAgrees(s, bit);
  }

  /** The handler does not care about signedness: a signed and an unsigned
      value of the same width and the same value publish the same bit. */
  lemma SignednessIrrelevant(s: Scalar, t: Scalar, bit: int)
    requires s.IsSigned() && t.IsUnsigned()
    requires s.Width() == t.Width() && s.IntValue() == t.IntValue()
    ensures OpcuaBitVectorHandler.FloatValue(bit, s) == OpcuaBitVectorHandler.FloatValue(bit, t)
  {
    IntegerBytes(s);
    IntegerBytes(t);
  }
}

=== FILE: summary.dfy ===
/** The event summary counter: one count per channel name, and a total,
    both cleared at every summary interval. */
module EventSummary {

  /** `EventSummaryCounter` without its mutex: the interval (a
      `time.Duration`, in nanoseconds), the per-channel counts and the
      total. */
  datatype Counter = Counter(interval: int, counts: map<string, int>, total: int)

  /** `NewEventSummaryCounter`: no counts yet. */
  function New(interval: int): (c: Counter)
    ensures c.interval == interval && c.counts == map[] && c.total == 0
  {
    Counter(interval, map[], 0)
  }

  /** A channel's count as Go reads it: 0 when the channel is absent. */
  function CountOf(c: Counter, channel: string): int {
    if channel in c.counts then c.counts[channel] else 0
  }

  /** `Inc`: a seen channel goes up by one, an unseen one starts at 1, and
      the total goes up by one. */
  function Inc(c: Counter, channel: string): (r: Counter)
    ensures r.interval == c.interval
    ensures r.counts.Keys == c.counts.Keys + {channel}
    ensures CountOf(r, channel) == CountOf(c, channel) + 1
    ensures forall other | other in c.counts && other != channel :: r.counts[other] == c.counts[other]
    ensures r.total == c.total + 1
  {
    if channel in c.counts then
      c.(counts := c.counts[channel := c.counts[channel] + 1], total := c.total + 1)
    else
      c.(counts := c.counts[channel := 1], total := c.total + 1)
  }

  /** `Reset`: every count cleared, the interval kept. */
  function Reset(c: Counter): (r: Counter)
    ensures r.interval == c.interval && r.counts == map[] && r.total == 0
  {
    c.(counts := map[], total := 0)
  }

  /** The sum of the counts. */
  ghost function Sum(counts: map<string, int>): int
    decreases |counts|
  {
    if counts == map[] then 0
    else
      var k := PickKey(counts);
      counts[k] + Sum(counts - {k})
  }

  ghost function PickKey(counts: map<string, int>): (k: string)
    requires counts != map[]
    ensures k in counts
  {
    var k :| k in counts; k
  }

  /** The sum does not depend on the key it starts from: any key's count
      plus the sum of the rest. */
  lemma {:induction false} SumRemove(counts: map<string, int>, k: string)
    requires k in counts
    ensures Sum(counts) == counts[k] + Sum(counts - {k})
    decreases |counts|
  {
    var j := PickKey(counts);
    if j != k {
      var rest := counts - {j};
      assert |rest| < |counts| by {
        assert rest.Keys == counts.Keys - {j};
      }
      SumRemove(rest, k);
      var both := rest - {k};
      assert counts - {k} - {j} == both;
      assert |counts - {k}| < |counts| by {
        assert (counts - {k}).Keys == counts.Keys - {k};
      }
      SumRemove(counts - {k}, j);
    }
  }

  /** The counter's invariant: every recorded channel has been counted at
      least once, and the total is the sum of the counts. */
  ghost predicate Valid(c: Counter) {
    && (forall ch | ch in c.counts :: c.counts[ch] >= 1)
    && c.total == Sum(c.counts)
  }

  lemma NewValid(interval: int)
    ensures Valid(New(interval))
  {
  }

  lemma ResetValid(c: Counter)
    ensures Valid(Reset(c))
  {
  }

  /** `Inc` keeps the total equal to the sum of the counts. */
  lemma IncValid(c: Counter, channel: string)
    requires Valid(c)
    ensures Valid(Inc(c, channel))
  {
    var r := Inc(c, channel);
    SumRemove(r.counts, channel);
    assert r.counts - {channel} == c.counts - {channel};
    if channel in c.counts {
      SumRemove(c.counts, channel);
    } else {
      assert c.counts - {channel} == c.counts;
    }
  }

  /** The number of times `channel` occurs in `channels`. */
  function Occurrences(channels: seq<string>, channel: string): nat {
    if channels == [] then 0
    else (if channels[0] == channel then 1 else 0) + Occurrences(channels[1..], channel)
  }

  /** `Inc` once per element of `channels`, in order. */
  function IncAll(c: Counter, channels: seq<string>): Counter
    decreases |channels|
  {
    if channels == [] then c else IncAll(Inc(c, channels[0]), channels[1..])
  }

  /** After a run of `Inc` calls each channel's count has grown by the
      number of times it was named, and the total by the length of the
      run; a channel is recorded exactly when it was recorded before or
      named. */
  lemma {:induction false} IncAllCounts(c: Counter, channels: seq<string>, channel: string)
    ensures IncAll(c, channels).interval == c.interval
    ensures IncAll(c, channels).total == c.total + |channels|
    ensures CountOf(IncAll(c, channels), channel) == CountOf(c, channel) + Occurrences(channels, channel)
    ensures channel in IncAll(c, channels).counts <==> channel in c.counts || channel in channels
    decreases |channels|
  {
    if channels != [] {
      IncAllCounts(Inc(c, channels[0]), channels[1..], channel);
      assert channel in channels <==> channel == channels[0] || channel in channels[1..];
    }
  }

  /** Every channel's count is exactly its number of occurrences since the
      counter was created or reset. */
  lemma CountsSinceReset(interval: int, channels: seq<string>, channel: string)
    ensures CountOf(IncAll(New(interval), channels), channel) == Occurrences(channels, channel)
    ensures IncAll(New(interval), channels).total == |channels|
    ensures Valid(IncAll(New(interval), channels))
  {
    IncAllCounts(New(interval), channels, channel);
    IncAllValid(New(interval), channels);
  }

  lemma {:induction false} IncAllValid(c: Counter, channels: seq<string>)
    requires Valid(c)
    ensures Valid(IncAll(c, channels))
    decreases |channels|
  {
    if channels != [] {
      IncValid(c, channels[0]);
      IncAllValid(Inc(c, channels[0]), channels[1..]);
    }
  }

  /** What `logSummary` reports: the total, the number of channels, and
      each channel's count. The per-second rates are left out. */
  datatype Summary = Summary(total: int, channels: int, counts: map<string, int>)

  /** One tick of the summary timer: report, then reset. */
  function Tick(c: Counter): (r: (Summary, Counter))
    ensures r.0.total == c.total && r.0.channels == |c.counts| && r.0.counts == c.counts
    ensures r.1 == Reset(c)
  {
    (Summary(c.total, |c.counts|, c.counts), Reset(c))
  }

  /** A tick of a valid counter reports a total that is the sum of the
      reported counts, and leaves a valid, empty counter behind. */
  lemma TickReportsSum(c: Counter)
    requires Valid(c)
    ensures Tick(c).0.total == Sum(Tick(c).0.counts)
    ensures Valid(Tick(c).1) && Tick(c).1.total == 0
  {
  }

  /** The summary test: three `foo` events and one `bar` event, then a
      reset. */
  lemma SummaryVector()
    ensures var c := IncAll(New(4000000), ["foo", "foo", "foo", "bar"]);
      && CountOf(c, "foo") == 3 && CountOf(c, "bar") == 1
      && c.total == 4 && c.interval == 4000000
      && Reset(c).counts == map[] && Reset(c).total == 0
  {
    var c0 := New(4000000);
    var c1 := Inc(c0, "foo");
    var c2 := Inc(c1, "foo");
    var c3 := Inc(c2, "foo");
    var c4 := Inc(c3, "bar");
    assert IncAll(c0, ["foo", "foo", "foo", "bar"]) == c4 by {
      assert ["foo", "foo", "foo", "bar"][1..] == ["foo", "foo", "bar"];
      assert ["foo", "foo", "bar"][1..] == ["foo", "bar"];
      assert ["foo", "bar"][1..] == ["bar"];
      assert ["bar"][1..] == [];
    }
  }
}
